=== FILE: README.md ===
# User directory with PDF profiles: a Dafny model

This project models the FastAPI user directory in `backend/main.py` and `backend/auth.py`.

The directory side keeps a `users` table. It lets an operator:
- add, edit and delete rows;
- search and page through the table;
- bulk-import rows from CSV and then see the new rows highlighted;
- download a one-page PDF profile of a user, merged with their uploaded resume.

The authentication side keeps an `auth_users` table. It covers:
- password hashing with bcrypt's 72-byte limit, and passlib's refusal of NUL characters and of secrets over 4096 characters;
- a signed session token, valid for an hour, carried in the `access_token` cookie;
- a session gate, and the signup, login and logout handlers.

Everything is pure functions over immutable values.
- The `users` table is `Directory.Store`: a map from id to row, plus the next value of the id sequence. `ORDER BY id` becomes a scan over ids.
- Responses are `Http.Response`: a redirect target, its status and the cookie change the browser applies.
- The file system is a map from path to content. A PDF is its list of pages.
- The profile page is the list of canvas operations the generator issues. `Profile.Render` replays those operations and gives the marks that end up on the page.
- bcrypt and the JOSE library are values of type `Auth.Hasher` and `Auth.Jose`, made of function fields. `Auth.HasherSound` and `Auth.JoseSound` state what the handlers rely on them for. The lemmas that need these take them as preconditions.
- The clock, bcrypt's salt and a database insert failure are parameters.

Python built-ins the handlers depend on are modelled in `Text` and `Numerals`:
- `str.split`, `str.join`, `str.replace`;
- `len(s.encode("utf-8"))`;
- `str(int)` and `int(str)`;
- the `ILIKE '%q%'` substring match.

Modules: `Wrappers`, `Text`, `Numerals`, `Http`, `Directory`, `Listing`, `CsvImport`, `Profile`, `Download`, `Auth`.

Behaviour of the code worth knowing:
- **Placeholder image.** A record without a photo shows the "image not uploaded" warning only when the placeholder image `static/images/no image.jpg` is also missing. The code draws the placeholder whenever it exists.
- **Merge failure.** A resume that exists but is not a PDF makes the merge fail. The code does not guard this, and by then it has already written the scratch profile file. The model returns `NotAPdf` and keeps that file.
- **Highlight order.** The highlight query has no `ORDER BY`. The model returns its rows in ascending id order.
- **Empty upload on add.** `add_user_form` saves every upload it is sent (`if image:`). An upload without a filename joins to the directory path `static/uploads/`, and opening that for writing raises before the table is read. The model answers such a request with `WriteFailed` and leaves the table unchanged.
- **Empty upload on update.** `update_user` writes only uploads with a non-empty filename. So the empty-filename case does not arise there, but a filename that itself ends in `/` (or is `/`) still names a directory. Opening it raises before the `UPDATE`, and the model answers `WriteFailed` with the table unchanged.
- **Digit limit.** CPython refuses `int()` of a decimal text with more than 4300 digits, underscores not counted. A `new_ids` naming such an id fails to parse, just like any other malformed one.
- **NUL in a password.** passlib's bcrypt raises `NullPasswordError` for a password holding a NUL character, in `hash` and in `verify`. A signup with such a password lands in the `try` and answers "Error saving user". A login with it for a registered email raises outside any `try` and ends in a 500. The model answers `Failure(NullPasswordError)` there.
- **Unused gate.** `get_current_user` is imported into `main.py`, but no route depends on it. The model treats it as a function of the cookie jar.

## Model

| member | source | states |
|---|---|---|
| Text.Split | backend/main.py:102 | `str.split` on one character always yields at least one piece, and no piece contains the separator |
| Text.SplitThenJoin | backend/main.py:102 | joining the pieces of a split with the same separator gives back the original text |
| Text.JoinThenSplit | backend/main.py:52 | splitting a join of one or more comma-free pieces gives back exactly those pieces |
| Text.ContainsIffOccurs | backend/main.py:115-124 | the scanning substring test behind `ILIKE '%q%'` holds exactly when some window of the text equals the needle |
| Text.Lower | backend/main.py:116-122 | case folding keeps the length, folds each character separately, and leaves no upper-case ASCII letter |
| Text.ReplaceChar | backend/main.py:300-301 | `replace("\\", "/")` keeps the length, rewrites every backslash and nothing else, and leaves no backslash |
| Text.Utf8Length | backend/auth.py:22 | the UTF-8 byte length lies between one and four bytes per character |
| Text.Utf8LengthOfAscii | backend/auth.py:59 | the byte length equals the character count exactly when every character is ASCII |
| Numerals.NatToString | backend/main.py:330 | `str` of a natural number is a non-empty run of digits, with a leading zero only for zero itself |
| Numerals.NatToStringValue | backend/main.py:330 | the digits `str` prints read back as the same number |
| Numerals.DigitsParse | backend/main.py:102 | `int()` of a digit string of at most 4300 digits, and of a minus sign followed by one, gives its value and that value negated; a longer digit string raises, signed or not |
| Numerals.IntToStringParses | backend/main.py:420 | `int(str(n)) == n` for every integer of at most 4300 digits, negative ones included; for a longer one `int()` raises |
| Numerals.IntToStringHasNoComma | backend/main.py:426 | the printed id never contains a comma, so commas can separate ids |
| Directory.SkillsFieldRoundTrip | backend/main.py:52 | the stored skills text is empty exactly when no skills were ticked, and splitting it on commas gives back the ticked skills when none of them contains a comma |
| Directory.FailedUpload | backend/main.py:55-63 | a handler writing the given uploads fails on one whose path names a directory, and on no other; the path reported is that upload's, and the image is checked before the resume |
| Directory.AddUserForm | backend/main.py:41-88 | an upload that cannot be saved fails the request with the table unchanged; otherwise a taken email leaves the table unchanged and redirects with "User already exists", and a new email adds exactly one row with a fresh id and the form's values, no other row changes, and table validity is kept |
| Directory.EmptyFilenameAddsNothing | backend/main.py:55-58 | an image sent without a filename fails the request on `static/uploads/` and adds no row, whatever the email |
| Directory.AddTwiceAddsOnce | backend/main.py:68-75 | submitting the same form again changes nothing, and reports the duplicate when the uploads could be saved |
| Directory.UpdateUser | backend/main.py:159-200 | an upload with a filename whose path names a directory fails the request with the table unchanged, whether or not the id has a row, the image checked before the resume; otherwise the row with that id gets the six form values, keeps its file paths unless new files with filenames came, other rows and the id set do not change, and an unknown id changes nothing |
| Directory.SlashFilenameUpdatesNothing | backend/main.py:176-179 | an image named `/` cannot be written, so the update fails on `/` and changes nothing, whatever the row, the form and the resume |
| Directory.UpdateIdempotent | backend/main.py:174-195 | submitting the same update again without new uploads succeeds; it leaves the table as a successful first submission left it, and after a failed one it applies the form values the failure skipped |
| Directory.DeleteUser | backend/main.py:203-222 | exactly the row with that id disappears, every other row stays as it was, and an unknown id changes nothing |
| Directory.DeleteUndoesAdd | backend/main.py:80-88 | deleting the row an add just created restores the rows from before the add |
| Listing.Scan | backend/main.py:132 | the query result holds rows of the table, each satisfying the filter, in strictly ascending id order |
| Listing.ScanIds | backend/main.py:112-124 | the query misses no row: its ids are exactly the ids of the table rows that satisfy the filter |
| Listing.SearchSelects | backend/main.py:115-124 | an empty `q` lists every row; otherwise a row is listed exactly when one of its five text columns contains `q`, ignoring case |
| Listing.HighlightSelects | backend/main.py:104-107 | the highlight branch lists exactly the requested ids that have rows |
| Listing.Window | backend/main.py:131-133 | `LIMIT`/`OFFSET` returns the rows from the offset on, each the row at its offset, and exactly `min(limit, rows left)` of them, none past the end |
| Listing.PageCountIsCeiling | backend/main.py:129 | `(total + per_page - 1) // per_page` is the smallest page count whose pages hold every row |
| Listing.Paginate | backend/main.py:126-134 | `per_page` 0 is a division by zero, and a negative limit or offset is refused; otherwise the page is exactly the slice of the ordered rows from the offset to the offset plus `per_page`, cut at the end; pages before the last are full, pages after it are empty, and the page count is the ceiling |
| Listing.PagesCoverRows | backend/main.py:129-133 | reading pages 1 to `total_pages` in turn lists every row exactly once, in order |
| Listing.ParseAll | backend/main.py:102 | parsing a list of pieces succeeds exactly when every piece parses, and then gives each piece's value in order |
| Listing.ParsedIdsNonEmpty | backend/main.py:102-104 | a non-empty `new_ids` that parses always names at least one id, so the highlight branch is taken |
| Listing.ListUsers | backend/main.py:91-146 | an unparsable `new_ids` fails; a parsable one shows exactly the highlighted rows on one page; otherwise the listing is the paginated search result, failing for a zero `per_page` and for a page below 1 |
| Listing.UsersPage | backend/main.py:91-98 | with the default query, `/users/` shows at most 12 rows |
| Listing.UsersTablePage | backend/main.py:226-281 | with the default query, `/users_table/` shows at most 4 rows, and `new_users_count` is the number of distinct ids named |
| CsvImport.IdRun | backend/main.py:419-420 | the ids handed out are consecutive, starting at the sequence's next value |
| CsvImport.InsertRows | backend/main.py:406-420 | each CSV row becomes a new row under the next sequence id, with no image and no resume, and older rows are untouched |
| CsvImport.UploadUsersCsv | backend/main.py:396-426 | the import inserts all rows, grows the table by one row per CSV row while keeping it valid, and redirects with the new ids |
| CsvImport.FreshIdsKeepValid | backend/main.py:406-423 | importing keeps the table valid and grows it by exactly one row per CSV row, so no imported id lands on an existing one |
| CsvImport.IdsParamRoundTrip | backend/main.py:426 | the comma-joined ids in `new_ids` parse back to exactly the inserted ids when each has at most 4300 digits, the parse fails when one has more, and `new_ids` is empty only for an empty import |
| CsvImport.ImportThenList | backend/main.py:237-244 | following the import's redirect shows exactly the imported rows, each with its CSV values, on a single page, with `new_users_count` equal to the number of CSV rows |
| Profile.NormalizePath | backend/main.py:300-301 | a stored path with backslashes turned into slashes has no backslash left, and a missing path becomes empty |
| Profile.ChooseImage | backend/main.py:303-308 | the photo is the record's image when that file exists, else the placeholder when it exists, else nothing |
| Profile.RenderAppend | backend/main.py:286-347 | drawing two runs of canvas calls gives the first run's marks, then the second run's marks drawn with the pen the first left behind |
| Profile.TableRenders | backend/main.py:322-341 | the six label/value rows land at x = 80 in grey and x = 150 in black, from y = 414 down in steps of 20 |
| Profile.ProfileRenders | backend/main.py:286-349 | the page shows exactly the fixed layout: the title, the logo when present, the photo or its warning, the table, and the resume warning when asked |
| Profile.WarningsIffMissing | backend/main.py:315-347 | the resume warning is on the page exactly when the resume is missing, and the image warning exactly when neither photo nor placeholder exists |
| Download.PathsDiffer | backend/main.py:364-365 | the scratch profile file never overwrites the merged file |
| Download.Merge | backend/main.py:381-386 | the merged document is the profile page followed by every resume page, and appending a non-PDF file fails |
| Download.DownloadUserPdf | backend/main.py:351-389 | an unknown id is "User not found" and writes nothing; otherwise the merged PDF is written to the user's final path and served under the user's name; no file other than the scratch profile and the merged file is changed or created |
| Download.DownloadContents | backend/main.py:368-386 | without a resume, the served file is the profile page alone; with a PDF resume, it is the profile page followed by the resume's pages; a non-PDF resume is the only failure |
| Download.ResumeNoteIffMissing | backend/main.py:368-376 | the served profile page carries the resume warning exactly when the user has no resume on disk |
| Download.DownloadTwice | backend/main.py:363-389 | downloading again serves the same file |
| Download.JaneWithoutFiles | backend/main.py:351-389 | a record with no photo, no resume and no placeholder downloads as one page with both warnings and its values in the table |
| Download.JaneWithFiles | backend/main.py:351-389 | the same record with a photo and a three-page resume downloads as four pages with no warning |
| Auth.HashPassword | backend/auth.py:21-24 | hashing refuses exactly the passwords longer than 72 UTF-8 bytes or holding a NUL character, with the matching error, and otherwise gives bcrypt's hash |
| Auth.HashThenVerify | backend/auth.py:21-27 | a stored hash verifies its own password and no other password bcrypt takes in full |
| Auth.DecodeToken | backend/auth.py:34-39 | a token that fails to decode yields no subject, and one that decodes yields its payload's `sub` |
| Auth.TokenLifetime | backend/auth.py:29-39 | a token issued at time t is non-empty and names its email up to t + 3600 seconds inclusive, and nothing afterwards |
| Auth.CurrentUser | backend/auth.py:41-48 | a missing or empty cookie is 401 "Not authenticated"; a token without a non-empty subject is 401 "Invalid token"; otherwise the gate returns the token's email |
| Auth.Signup | backend/auth.py:57-82 | an over-long password and a taken email are refused without change; a password holding NUL or a failed insert redirects with "Error saving user" and changes nothing; otherwise exactly this email is added with its password's hash |
| Auth.SignupTwice | backend/auth.py:62-68 | a signup registers the email unless bcrypt refuses the password, and once the email is registered, signing up again with it changes nothing and reports "User already exists" |
| Auth.Login | backend/auth.py:90-105 | for a registered email, a password passlib refuses ends in its error (a 500), the size check first; otherwise login succeeds exactly when the email is registered and the password verifies, and then sets an http-only session cookie; every other outcome is the same "Invalid credentials" redirect |
| Auth.Logout | backend/auth.py:108-112 | logout redirects to the login page and deletes the session cookie |
| Auth.SignupThenLogin | backend/auth.py:70-100 | after signing up, logging in with the same password succeeds, another password bcrypt takes is refused and one holding NUL ends in passlib's error; a password holding NUL never signs up, so every login for the email is refused |
| Auth.LoginThenGate | backend/auth.py:41-105 | a successful login's cookie passes the gate for an hour and is then refused as "Invalid token"; an empty email, which request validation stops earlier, would be refused too |
| Auth.ForgedCookieRefused | backend/auth.py:34-47 | a cookie holding a token signed with any key but the server's is refused as "Invalid token" |
| Auth.UnsignedCookieRefused | backend/auth.py:34-47 | a non-empty cookie that the server's key never signed, tampered with or made up, is refused as "Invalid token" |
| Auth.LogoutThenGate | backend/auth.py:108-112 | after logout the gate answers "Not authenticated" |

## Left out

- File contents and file I/O: uploads are saved, old files are removed on delete, and `makedirs` is called. Only paths and existence are modelled.
- SQL: connections, commits and rollbacks are not modelled. A CSV import whose `age` value does not cast makes the whole import fail and roll back; this is not modelled. Ids consumed by failed inserts are not modelled either.
- Postgres `bigint` bounds on ids and `LIMIT`/`OFFSET` are not modelled: integers are unbounded.
- `ILIKE` wildcards: the search text is treated as literal. `%`, `_` and `\` inside `q` are not given their pattern meaning.
- Case folding is ASCII only. Postgres' locale-aware folding of other letters is not modelled.
- `int()` accepts Unicode digits and Unicode spaces. Only ASCII digits and ASCII whitespace are modelled.
- CSV parsing and UTF-8 decoding of the upload are not modelled. Rows arrive already split into typed columns.
- `generate_profile_pdf`'s `image_missing` parameter is not modelled, because nothing reads it.
- PDF bytes are not modelled. Logo and photo bytes are not modelled either. `Profile.Render` describes what is drawn, not how reportlab encodes it.
- Templates, the `/` redirect, the home page and the edit, signup, login and upload form pages are not modelled. They only render HTML.
- The reason behind "Error saving user" is not modelled. It is the parameter `insertFails`.
- Concurrency: simultaneous requests and races between an upload and a download are not modelled.
- bcrypt and JWT internals are not modelled. These are the hash function, HMAC-SHA256 and base64url. Only the properties in `Auth.HasherSound` and `Auth.JoseSound` are assumed, and only by the lemmas that name them.
- Auth.DecodeToken: exceptions other than `JWTError` are not modelled. A `sub` claim that is not a string is not modelled either.
- Auth.HashThenVerify: `verify` raising on a malformed stored hash is not modelled.
- Auth.JoseSound: takes a token that decodes under a key to be exactly the one `encode` makes for its payload. A token made with the server's secret by another JWT encoder, with a different header or claim order, is not modelled. Such a token would decode but is not `encode`'s output.
- passlib's `PASSLIB_MAX_PASSWORD_SIZE` environment override of the 4096-character limit is not modelled.
- Clock readings are whole seconds. The JOSE library truncates both the expiry and the current time to seconds before it compares them, so nothing finer matters.
- Directory.UploadPath: models `os.path.join` as on POSIX. On Windows, `ntpath.join` would join with a backslash and would also treat `C:...` and `\...` names as absolute; the backslash normalisation in the PDF code suggests stored paths may come from there.
- Directory.UpdateUser: the only upload write failure modelled is a path that names a directory, as for `add_user_form`. Other write failures, and an image written before a resume that then fails, are not modelled.
- Directory.AddUserForm: the only upload write failure modelled is a path that names a directory. Missing subdirectories in a filename, `.` or `..` as a filename, and permission errors are not modelled. Files written before a later failure are not modelled either.
- FastAPI's own request validation is not modelled. It answers 422, before the handler runs, for a missing or non-integer form field. FastAPI also counts an empty string in a required `Form(...)` field as missing. So an empty email or password at signup or login gets a 422, and so does an empty name, email, city or gender at add or update. The model takes these requests as ordinary ones: `Auth.Signup` with an empty email adds an account, and `Auth.Login` and `Directory.AddUserForm` process them normally.
- Directory.UpdateUser and CsvImport.InsertRows do not check that emails are unique, because the code does not check.
- Download.DownloadTwice: requires that the user's stored paths, the logo and the placeholder are not the two generated download paths. If one of them were, the second download would read the first one's output.
- CsvImport.ImportThenList: requires at least one CSV row. An empty import redirects with an empty `new_ids` and shows the ordinary first page. It also requires the first and last new ids to be within the 4300-digit limit. Past it, `str(id)` raises before the redirect, and `Numerals.IntToString` does not model that.
- Numerals.IntToString: `str(n)` raising `ValueError` for a number of more than 4300 digits is not modelled. The limit is modelled only on the `int()` side.
- Numerals.ParseInt: the 4300-digit limit is CPython's default. Changing it with `sys.set_int_max_str_digits` or `PYTHONINTMAXSTRDIGITS` is not modelled.

=== FILE: auth.dfy ===
/** backend/auth.py: password hashing, signed session tokens, the cookie
    gate and the signup, login and logout handlers.

    bcrypt and the JOSE library are not modelled inside: each is a pair of
    functions handed in as a value, and what the handlers rely on them for
    is stated as a predicate (`HasherSound`, `JoseSound`) that the lemmas
    take as a precondition. The clock and bcrypt's random salt are
    parameters. */
module Auth {
  import opened Wrappers
  import Text
  import opened Http

  const SecretKey := "CHANGE_THIS_TO_A_LONG_RANDOM_SECRET"
  const TokenMinutes := 60
  const MaxPasswordLength := 72
  const CookieName := "access_token"

  const TooLongUrl := "/signup?msg=Password too long (max 72 characters)"
  const ExistsUrl := "/signup?msg=User already exists"
  const SaveErrorUrl := "/signup?msg=Error saving user"
  const SignedUpUrl := "/login?msg=Signup successful"
  const BadCredentialsUrl := "/login?msg=Invalid credentials"
  const HomeUrl := "/home/"
  const LoggedOutUrl := "/login?msg=Logged out"

  /** passlib's `MAX_PASSWORD_SIZE`: a longer secret is refused before bcrypt sees it. */
  const MaxSecretSize := 4096

  /** Why passlib's bcrypt raised instead of hashing or verifying. Neither
      is caught by a handler except inside `signup`'s `try`. */
  datatype BcryptError =
    | PasswordSizeError  // a secret of more than 4096 characters
    | NullPasswordError  // a secret holding a NUL character, which bcrypt cannot take

  /** The secrets passlib hands on to bcrypt. */
  predicate BcryptTakes(p: string)
  {
    |p| <= MaxSecretSize && '\0' !in p
  }

  /** passlib's checks on a secret, in its order: the size first, then NUL. */
  function BcryptRefusal(p: string): (e: Option<BcryptError>)
    ensures e.None? <==> BcryptTakes(p)
    ensures e == Some(PasswordSizeError) <==> |p| > MaxSecretSize
  {
    if |p| > MaxSecretSize then Some(PasswordSizeError)
    else if '\0' in p then Some(NullPasswordError)
    else None
  }

  /** A bcrypt context: `hash(password, salt)` and `verify(password, hash)`,
      for the secrets it takes. */
  datatype Hasher = Hasher(hash: (string, int) -> string, verify: (string, string) -> bool)

  /** What the handlers need from bcrypt: a password it takes verifies
      against its own hash, and, among the passwords it reads in full (at
      most 72 UTF-8 bytes), against no other password's hash. */
  ghost predicate HasherSound(h: Hasher)
  {
    && (forall p, salt :: BcryptTakes(p) ==> h.verify(p, h.hash(p, salt)))
    && (forall p, q, salt ::
          Text.Utf8Length(p) <= MaxPasswordLength && Text.Utf8Length(q) <= MaxPasswordLength
          && BcryptTakes(p) && BcryptTakes(q) && p != q
          ==> !h.verify(q, h.hash(p, salt)))
  }

  /** A token's payload: the subject and the expiry, in whole seconds since the epoch. */
  datatype Claims = Claims(sub: Option<string>, exp: Option<int>)

  /** The JOSE library shows a payload at `now` unless its expiry is earlier than `now`. */
  predicate NotExpired(c: Claims, now: int)
  {
    c.exp.None? || now <= c.exp.value
  }

  /** `jwt.encode(claims, key)` and `jwt.decode(token, key)` at time `now`;
      `None` stands for a raised `JWTError`. */
  datatype Jose = Jose(encode: (Claims, string) -> string, decode: (string, string, int) -> Option<Claims>)

  /** What the handlers need from JOSE: a token decodes, under the key that
      signed it, to the payload it was made from until that payload
      expires, and to an error afterwards; under any other key it is an
      error (the signature does not match); a string decodes under a key
      only if it is the token that key signs for the payload it decodes
      to, so nothing else can pass for a token; and a token is never empty. */
  ghost predicate JoseSound(jose: Jose)
  {
    && (forall c, key, now ::
          jose.decode(jose.encode(c, key), key, now) == if NotExpired(c, now) then Some(c) else None)
    && (forall c, key, other, now :: key != other ==> jose.decode(jose.encode(c, key), other, now).None?)
    && (forall t, key, now :: jose.decode(t, key, now).Some? ==> t == jose.encode(jose.decode(t, key, now).value, key))
    && (forall c, key :: jose.encode(c, key) != "")
  }

  /** Why `hash_password` raised: its own `ValueError` for a password that
      bcrypt would silently cut short, or passlib's refusal. */
  datatype HashError = TooLong | Refused(reason: BcryptError)

  /** `hash_password`: refuses a password longer than 72 UTF-8 bytes, and
      passlib then refuses one holding a NUL character. */
  function HashPassword(password: string, h: Hasher, salt: int): (r: Result<string, HashError>)
    ensures r.Failure? <==> Text.Utf8Length(password) > MaxPasswordLength || '\0' in password
    ensures Text.Utf8Length(password) > MaxPasswordLength ==> r == Failure(TooLong)
    ensures Text.Utf8Length(password) <= MaxPasswordLength && '\0' in password ==> r == Failure(Refused(NullPasswordError))
    ensures r.Success? ==> r.value == h.hash(password, salt)
  {
    if Text.Utf8Length(password) > MaxPasswordLength then Failure(TooLong)
    else
      match BcryptRefusal(password)
      case Some(e) => Failure(Refused(e))
      case None => Success(h.hash(password, salt))
  }

  /** A stored hash verifies its own password and no other one bcrypt can take. */
  lemma HashThenVerify(password: string, other: string, h: Hasher, salt: int)
    requires HasherSound(h)
    ensures HashPassword(password, h, salt).Success? ==>
              && h.verify(password, HashPassword(password, h, salt).value)
              && (other != password && Text.Utf8Length(other) <= MaxPasswordLength && '\0' !in other
                  ==> !h.verify(other, HashPassword(password, h, salt).value))
  {
  }

  /** `create_access_token(email)` issued at `now`: subject `email`, expiring 60 minutes later. */
  function CreateAccessToken(email: string, jose: Jose, now: int): string
  {
    jose.encode(Claims(Some(email), Some(now + TokenMinutes * 60)), SecretKey)
  }

  /** `decode_token`: the token's subject, or `None` when decoding fails. */
  function DecodeToken(token: string, jose: Jose, now: int): (r: Option<string>)
    ensures jose.decode(token, SecretKey, now).None? ==> r.None?
    ensures jose.decode(token, SecretKey, now).Some? ==> r == jose.decode(token, SecretKey, now).value.sub
  {
    match jose.decode(token, SecretKey, now)
    case None => None
    case Some(c) => c.sub
  }

  /** A token issued at `now` names its email for exactly one hour, the last second included. */
  lemma TokenLifetime(email: string, jose: Jose, now: int, later: int)
    requires JoseSound(jose)
    ensures CreateAccessToken(email, jose, now) != ""
    ensures DecodeToken(CreateAccessToken(email, jose, now), jose, later)
         == if later <= now + 3600 then Some(email) else None
  {
    var c := Claims(Some(email), Some(now + TokenMinutes * 60));
    assert jose.decode(jose.encode(c, SecretKey), SecretKey, later) == if NotExpired(c, later) then Some(c) else None;
  }

  /** Why the gate turned a request away: `HTTPException(status, detail)`. */
  datatype Rejection = Rejection(status: int, detail: string)

  /** `get_current_user`: the email in the request's session cookie. */
  function CurrentUser(cookies: map<string, string>, jose: Jose, now: int): (r: Result<string, Rejection>)
    ensures (CookieName !in cookies || cookies[CookieName] == "") <==> r == Failure(Rejection(Unauthorized, "Not authenticated"))
    ensures r.Success? ==> r.value != "" && DecodeToken(cookies[CookieName], jose, now) == Some(r.value)
    ensures r.Failure? ==> r.error.status == Unauthorized
    ensures CookieName in cookies && cookies[CookieName] != "" && DecodeToken(cookies[CookieName], jose, now).GetOr("") == ""
            <==> r == Failure(Rejection(Unauthorized, "Invalid token"))
  {
    if CookieName !in cookies || cookies[CookieName] == "" then Failure(Rejection(Unauthorized, "Not authenticated"))
    else
      var email := DecodeToken(cookies[CookieName], jose, now);
      if email.GetOr("") == "" then Failure(Rejection(Unauthorized, "Invalid token"))
      else Success(email.value)
  }

  /** The `auth_users` table: email to password hash. */
  type Accounts = map<string, string>

  /** `POST /signup`. `insertFails` stands for the database refusing the
      insert (a concurrent signup for the same email, a lost connection);
      a password passlib refuses fails inside the same `try`. */
  function Signup(accounts: Accounts, email: string, password: string, h: Hasher, salt: int, insertFails: bool): (r: (Accounts, Response))
    ensures r.1.status == SeeOther && r.1.cookie.KeepCookies?
    ensures Text.Utf8Length(password) > MaxPasswordLength ==> r == (accounts, RedirectTo(TooLongUrl))
    ensures Text.Utf8Length(password) <= MaxPasswordLength && email in accounts ==> r == (accounts, RedirectTo(ExistsUrl))
    ensures r.1.url == SignedUpUrl <==>
              Text.Utf8Length(password) <= MaxPasswordLength && email !in accounts && '\0' !in password && !insertFails
    ensures Text.Utf8Length(password) <= MaxPasswordLength && email !in accounts && ('\0' in password || insertFails)
            ==> r == (accounts, RedirectTo(SaveErrorUrl))
    ensures r.1.url == SignedUpUrl ==> r.0 == accounts[email := h.hash(password, salt)]
    ensures r.1.url != SignedUpUrl ==> r.0 == accounts
  {
    if Text.Utf8Length(password) > MaxPasswordLength then (accounts, RedirectTo(TooLongUrl))
    else if email in accounts then (accounts, RedirectTo(ExistsUrl))
    else
      match HashPassword(password, h, salt)
      case Failure(_) => (accounts, RedirectTo(SaveErrorUrl))
      case Success(hashed) =>
        if insertFails then (accounts, RedirectTo(SaveErrorUrl))
        else (accounts[email := hashed], RedirectTo(SignedUpUrl))
  }

  /** A signup with a password of at most 72 bytes registers the email
      unless bcrypt refuses the password, and once the email is registered,
      signing up again with it changes nothing, whatever the second password. */
  lemma SignupTwice(accounts: Accounts, email: string, password: string, again: string, h: Hasher, salt: int, salt2: int)
    requires Text.Utf8Length(password) <= MaxPasswordLength && Text.Utf8Length(again) <= MaxPasswordLength
    ensures email in Signup(accounts, email, password, h, salt, false).0 <==> email in accounts || '\0' !in password
    ensures email in Signup(accounts, email, password, h, salt, false).0 ==>
            var first := Signup(accounts, email, password, h, salt, false).0;
            Signup(first, email, again, h, salt2, false) == (first, RedirectTo(ExistsUrl))
  {
  }

  /** `POST /login` at time `now`. A `Failure` is passlib raising inside
      `verify_password`, which nothing catches: the request ends in a 500. */
  function Login(accounts: Accounts, email: string, password: string, h: Hasher, jose: Jose, now: int): (r: Result<Response, BcryptError>)
    ensures r.Failure? <==> email in accounts && !BcryptTakes(password)
    ensures r == Failure(PasswordSizeError) <==> email in accounts && |password| > MaxSecretSize
    ensures r.Success? ==> r.value.status == SeeOther
    ensures r.Success? ==> ((email in accounts && h.verify(password, accounts[email])) <==> r.value.url == HomeUrl)
    ensures r.Success? && r.value.url == HomeUrl ==> r.value.cookie == SetCookie(CookieName, CreateAccessToken(email, jose, now), true)
    ensures r.Success? && r.value.url != HomeUrl ==> r.value == RedirectTo(BadCredentialsUrl)
  {
    if email !in accounts then Success(RedirectTo(BadCredentialsUrl))
    else
      match BcryptRefusal(password)
      case Some(e) => Failure(e)
      case None =>
        if !h.verify(password, accounts[email]) then Success(RedirectTo(BadCredentialsUrl))
        else Success(Redirect(HomeUrl, SeeOther, SetCookie(CookieName, CreateAccessToken(email, jose, now), true)))
  }

  /** `POST /logout`: back to the login page, dropping the session cookie. */
  function Logout(): (r: Response)
    ensures r.status == SeeOther && r.url == LoggedOutUrl
    ensures r.cookie.DeleteCookie? && r.cookie.name == CookieName
  {
    Redirect(LoggedOutUrl, SeeOther, DeleteCookie(CookieName))
  }

  /** After a signup with a password bcrypt takes, logging in with the same
      password succeeds, any other password bcrypt takes is refused, and
      one holding NUL ends in passlib's error. A password holding NUL never
      signs up, so the email stays unknown to the login. */
  lemma SignupThenLogin(accounts: Accounts, email: string, password: string, other: string,
                        h: Hasher, salt: int, jose: Jose, now: int)
    requires HasherSound(h)
    requires Text.Utf8Length(password) <= MaxPasswordLength && email !in accounts
    requires Text.Utf8Length(other) <= MaxPasswordLength && other != password
    ensures var after := Signup(accounts, email, password, h, salt, false).0;
            && ('\0' !in password ==>
                  && Login(after, email, password, h, jose, now).Success?
                  && Login(after, email, password, h, jose, now).value.url == HomeUrl
                  && Login(after, email, other, h, jose, now)
                     == if '\0' in other then Failure(NullPasswordError) else Success(RedirectTo(BadCredentialsUrl)))
            && ('\0' in password ==>
                  && after == accounts
                  && Login(after, email, password, h, jose, now) == Success(RedirectTo(BadCredentialsUrl))
                  && Login(after, email, other, h, jose, now) == Success(RedirectTo(BadCredentialsUrl)))
  {
    var after := Signup(accounts, email, password, h, salt, false).0;
    if '\0' !in password {
      assert after[email] == h.hash(password, salt);
      assert BcryptTakes(password);
      assert h.verify(password, h.hash(password, salt));
      if '\0' !in other {
        assert BcryptTakes(other);
        assert !h.verify(other, h.hash(password, salt));
      }
    }
  }

  /** A browser that logged in at `now` passes the gate until the token's
      hour is up, and is turned away with "Invalid token" afterwards;
      the gate also refuses the empty email. */
  lemma LoginThenGate(accounts: Accounts, email: string, password: string, h: Hasher, jose: Jose,
                      cookies: map<string, string>, now: int, later: int)
    requires JoseSound(jose)
    requires email in accounts && BcryptTakes(password) && h.verify(password, accounts[email])
    ensures Login(accounts, email, password, h, jose, now).Success?
    ensures var jar := ApplyCookie(cookies, Login(accounts, email, password, h, jose, now).value.cookie);
            && (later <= now + 3600 && email != "" ==> CurrentUser(jar, jose, later) == Success(email))
            && (later > now + 3600 || email == "" ==> CurrentUser(jar, jose, later) == Failure(Rejection(Unauthorized, "Invalid token")))
  {
    TokenLifetime(email, jose, now, later);
  }

  /** After logging out, the gate answers "Not authenticated". */
  lemma LogoutThenGate(cookies: map<string, string>, jose: Jose, now: int)
    ensures CurrentUser(ApplyCookie(cookies, Logout().cookie), jose, now) == Failure(Rejection(Unauthorized, "Not authenticated"))
  {
  }

  /** A session cookie holding a token signed with any key but the
      server's is turned away as "Invalid token", whatever its payload. */
  lemma ForgedCookieRefused(cookies: map<string, string>, c: Claims, key: string, jose: Jose, now: int)
    requires JoseSound(jose) && key != SecretKey
    ensures CurrentUser(cookies[CookieName := jose.encode(c, key)], jose, now)
         == Failure(Rejection(Unauthorized, "Invalid token"))
  {
    assert jose.decode(jose.encode(c, key), SecretKey, now).None?;
    assert jose.encode(c, key) != "";
  }

  /** A session cookie holding any string the server's key never signed,
      whether tampered with or made up, is turned away as "Invalid token". */
  lemma UnsignedCookieRefused(cookies: map<string, string>, t: string, jose: Jose, now: int)
    requires JoseSound(jose) && t != ""
    requires forall c :: jose.encode(c, SecretKey) != t
    ensures CurrentUser(cookies[CookieName := t], jose, now) == Failure(Rejection(Unauthorized, "Invalid token"))
  {
    assert jose.decode(t, SecretKey, now).None?;
  }
}

=== FILE: csv_import.dfy ===
/** `upload_users_csv` (backend/main.py): every parsed CSV row becomes a new
    `users` row, and the browser is sent to `/users_table/` with the new ids
    joined by commas in `new_ids`, which the listing then highlights. */
module CsvImport {
  import opened Wrappers
  import Text
  import Numerals
  import opened Http
  import opened Directory
  import opened Listing

  /** One row as `csv.DictReader` yields it, already converted to column values. */
  datatype CsvRow = CsvRow(name: string, email: string, age: int, city: string, gender: string, skills: string)

  /** The imported row: the six columns, no image and no resume. */
  function ImportedUser(row: CsvRow): User
  {
    User(row.name, row.email, row.age, row.city, row.gender, row.skills, None, None)
  }

  /** The ids `n, n+1, ..., n+count-1` the sequence hands out to `count` inserts. */
  function IdRun(n: int, count: nat): (ids: seq<int>)
    ensures |ids| == count
    ensures forall k :: 0 <= k < count ==> ids[k] == n + k
    decreases count
  {
    if count == 0 then [] else [n] + IdRun(n + 1, count - 1)
  }

  /** The ids in `[lo, hi)`: there are `hi - lo` of them. */
  function IdRange(lo: int, hi: int): (r: set<int>)
    ensures forall id :: id in r <==> lo <= id < hi
    ensures lo <= hi ==> |r| == hi - lo
    decreases hi - lo
  {
    if lo >= hi then {}
    else
      var rest := IdRange(lo + 1, hi);
      assert lo !in rest;
      {lo} + rest
  }

  /** `INSERT ... RETURNING id` for each row in turn, collecting the ids.
      No duplicate-email check is made here, unlike `add_user_form`. */
  function InsertRows(s: Store, rows: seq<CsvRow>): (r: (Store, seq<int>))
    ensures r.1 == IdRun(s.nextId, |rows|)
    ensures r.0.nextId == s.nextId + |rows|
    ensures forall id :: id in r.0.users <==> id in s.users || s.nextId <= id < s.nextId + |rows|
    ensures forall id :: s.nextId <= id < s.nextId + |rows| ==> r.0.users[id] == ImportedUser(rows[id - s.nextId])
    ensures forall id :: id in s.users && !(s.nextId <= id < s.nextId + |rows|) ==> r.0.users[id] == s.users[id]
    decreases |rows|
  {
    if |rows| == 0 then (s, [])
    else
      var s1 := Store(s.users[s.nextId := ImportedUser(rows[0])], s.nextId + 1);
      var (s2, ids) := InsertRows(s1, rows[1..]);
      assert forall k :: 0 <= k < |rows| - 1 ==> rows[1..][k] == rows[k + 1];
      (s2, [s.nextId] + ids)
  }

  /** The `new_ids` value the import redirects with: `",".join(str(id) for each id)`. */
  function IdsParam(ids: seq<int>): string
  {
    Text.Join(IdTexts(ids), ',')
  }

  /** `str(id)` for each id, in order. */
  function IdTexts(ids: seq<int>): (texts: seq<string>)
    ensures |texts| == |ids|
  {
    seq(|ids|, k requires 0 <= k < |ids| => Numerals.IntToString(ids[k]))
  }

  const ImportUrlPrefix := "/users_table/?new_ids="

  /** `upload_users_csv`: insert all rows, then redirect with their ids. */
  function UploadUsersCsv(s: Store, rows: seq<CsvRow>): (r: (Store, Response))
    ensures r.0 == InsertRows(s, rows).0
    ensures r.1 == RedirectTo(ImportUrlPrefix + IdsParam(IdRun(s.nextId, |rows|)))
    ensures Valid(s) ==> Valid(r.0) && |r.0.users| == |s.users| + |rows|
  {
    var (s2, ids) := InsertRows(s, rows);
    FreshIdsKeepValid(s, rows);
    (s2, RedirectTo(ImportUrlPrefix + IdsParam(ids)))
  }

  /** The imported ids lie above every existing id, so the table stays valid and grows by one row per CSV row. */
  lemma FreshIdsKeepValid(s: Store, rows: seq<CsvRow>)
    ensures Valid(s) ==> Valid(InsertRows(s, rows).0)
    ensures Valid(s) ==> |InsertRows(s, rows).0.users| == |s.users| + |rows|
  {
    if Valid(s) {
      var added := IdRange(s.nextId, s.nextId + |rows|);
      var after := InsertRows(s, rows).0;
      assert s.users.Keys !! added;
      assert after.users.Keys == s.users.Keys + added;
      assert |after.users.Keys| == |s.users.Keys| + |added|;
    }
  }

  /** Every id is short enough for `str()` and `int()` under the digit limit. */
  predicate AllWithinDigitLimit(ids: seq<int>)
  {
    forall k :: 0 <= k < |ids| ==> Numerals.WithinDigitLimit(ids[k])
  }

  /** Splitting the import's `new_ids` on commas and parsing each piece gives
      back exactly the inserted ids when each is within the digit limit, and
      fails otherwise; no rows gives an empty `new_ids`. */
  lemma IdsParamRoundTrip(ids: seq<int>)
    ensures |ids| == 0 <==> IdsParam(ids) == ""
    ensures |ids| > 0 ==> ParseIdList(IdsParam(ids)) == if AllWithinDigitLimit(ids) then Some(ToSet(ids)) else None
  {
    IdTextsNonEmpty(ids);
    if |ids| > 0 {
      IdTextsParse(ids);
      Text.JoinThenSplit(IdTexts(ids), ',');
      ParseAllIdTexts(ids);
    }
  }

  /** Each `str(id)` is comma-free and reads back as the id within the digit limit. */
  lemma IdTextsParse(ids: seq<int>)
    ensures forall k :: 0 <= k < |ids| ==> ',' !in IdTexts(ids)[k]
    ensures forall k :: 0 <= k < |ids| ==>
      Numerals.ParseInt(IdTexts(ids)[k]) == if Numerals.WithinDigitLimit(ids[k]) then Some(ids[k]) else None
  {
    forall k | 0 <= k < |ids|
      ensures ',' !in IdTexts(ids)[k]
      ensures Numerals.ParseInt(IdTexts(ids)[k]) == if Numerals.WithinDigitLimit(ids[k]) then Some(ids[k]) else None
    {
      Numerals.IntToStringHasNoComma(ids[k]);
      Numerals.IntToStringParses(ids[k]);
    }
  }

  /** Parsing every `str(id)` gives the ids back, or fails on the first one past the digit limit. */
  lemma ParseAllIdTexts(ids: seq<int>)
    requires forall k :: 0 <= k < |ids| ==>
      Numerals.ParseInt(IdTexts(ids)[k]) == if Numerals.WithinDigitLimit(ids[k]) then Some(ids[k]) else None
    ensures ParseAll(IdTexts(ids)) == if AllWithinDigitLimit(ids) then Some(ids) else None
  {
    var texts := IdTexts(ids);
    if AllWithinDigitLimit(ids) {
      assert ParseAll(texts).value == ids;
    } else {
      var k :| 0 <= k < |ids| && !Numerals.WithinDigitLimit(ids[k]);
      assert Numerals.ParseInt(texts[k]).None?;
    }
  }

  /** `new_ids` is empty exactly when there are no ids: `str()` never gives "". */
  lemma IdTextsNonEmpty(ids: seq<int>)
    ensures |ids| == 0 <==> IdsParam(ids) == ""
  {
    if |ids| > 0 {
      var texts := IdTexts(ids);
      assert |texts[0]| > 0;
      if |ids| == 1 {
        assert IdsParam(ids) == texts[0];
      } else {
        assert |IdsParam(ids)| >= |texts[0]|;
      }
    }
  }

  /** A `new_ids` that parses to a set of ids shows the highlight branch on one page. */
  lemma HighlightedTablePage(s: Store, newIds: string, ids: set<int>)
    requires newIds != "" && ParseIdList(newIds) == Some(ids)
    ensures UsersTablePage(s, Query(None, None, None, Some(newIds)))
            == Success(TablePage(ListingView(Matching(s, Highlight(ids)), 1, 1, ids), |ids|))
  {
  }

  /** The ids the import hands out are exactly the block above the old `nextId`. */
  lemma IdRunSet(n: int, count: nat)
    ensures ToSet(IdRun(n, count)) == IdRange(n, n + count)
  {
    var ids := IdRun(n, count);
    forall x | x in IdRange(n, n + count) ensures x in ids {
      assert ids[x - n] == x;
    }
  }

  /** The `new_ids` of an import of at least one row names exactly the block
      of new ids, when its first and last id are within the digit limit. */
  lemma ImportParamParses(n: int, count: nat)
    requires count > 0 && Numerals.WithinDigitLimit(n) && Numerals.WithinDigitLimit(n + count - 1)
    ensures IdsParam(IdRun(n, count)) != ""
    ensures ParseIdList(IdsParam(IdRun(n, count))) == Some(IdRange(n, n + count))
  {
    var ids := IdRun(n, count);
    forall k | 0 <= k < count ensures Numerals.WithinDigitLimit(ids[k]) {
      Numerals.WithinDigitLimitBetween(n, n + k, n + count - 1);
    }
    IdsParamRoundTrip(ids);
    IdRunSet(n, count);
  }

  /** A `/users_table/` result that shows exactly the rows imported from
      `rows` under the ids `n, n+1, ...`, on one page, counting them. */
  predicate ShowsImported(page: Result<TablePage, ListError>, rows: seq<CsvRow>, n: int)
  {
    && page.Success?
    && page.value.newUsersCount == |rows|
    && page.value.listing.totalPages == 1
    && RowIds(page.value.listing.users) == IdRange(n, n + |rows|)
    && AllImported(page.value.listing.users, rows, n)
  }

  /** Each listed row is the import of the CSV row at its offset from `n`. */
  predicate AllImported(listed: seq<Row>, rows: seq<CsvRow>, n: int)
  {
    forall j :: 0 <= j < |listed| ==>
      0 <= listed[j].id - n < |rows| && listed[j].user == ImportedUser(rows[listed[j].id - n])
  }

  /** The highlight branch lists every imported id and no other. */
  lemma ImportedIdsListed(s: Store, rows: seq<CsvRow>, n: int, count: nat)
    requires Valid(s) && n == s.nextId && count == |rows|
    ensures RowIds(Matching(InsertRows(s, rows).0, Highlight(IdRange(n, n + count)))) == IdRange(n, n + count)
  {
    var s2 := InsertRows(s, rows).0;
    FreshIdsKeepValid(s, rows);
    assert forall id :: n <= id < n + count ==> id in s2.users;
    IdsListedFrom(s2, n, count);
  }

  /** Listing by the ids `[n, n + count)` of a table holding all of them lists exactly them. */
  lemma IdsListedFrom(s2: Store, n: int, count: nat)
    requires Valid(s2)
    requires forall id :: n <= id < n + count ==> id in s2.users
    ensures RowIds(Matching(s2, Highlight(IdRange(n, n + count)))) == IdRange(n, n + count)
  {
    var added := IdRange(n, n + count);
    HighlightSelects(s2, added);
    var listed := Matching(s2, Highlight(added));
    forall id ensures id in RowIds(listed) <==> id in added {
      if id in added {
        assert n <= id < n + count;
      }
    }
  }

  /** Each row the highlight branch lists is the import of its CSV row. */
  lemma ListedRowsImported(s: Store, rows: seq<CsvRow>, n: int, count: nat)
    requires n == s.nextId && count == |rows|
    ensures AllImported(Matching(InsertRows(s, rows).0, Highlight(IdRange(n, n + count))), rows, n)
  {
    var s2 := InsertRows(s, rows).0;
    assert forall id :: s.nextId <= id < s.nextId + |rows| ==> id in s2.users && s2.users[id] == ImportedUser(rows[id - s.nextId]);
    ListedFromImport(s2, rows, n, count);
  }

  /** Rows listed by id from a table holding the imported users at `[n, n + count)` are those users. */
  lemma ListedFromImport(s2: Store, rows: seq<CsvRow>, n: int, count: nat)
    requires count == |rows|
    requires forall id :: n <= id < n + count ==> id in s2.users && s2.users[id] == ImportedUser(rows[id - n])
    ensures AllImported(Matching(s2, Highlight(IdRange(n, n + count))), rows, n)
  {
    var listed := Matching(s2, Highlight(IdRange(n, n + count)));
    assert FromTable(listed, s2.users);
    forall j | 0 <= j < |listed| ensures 0 <= listed[j].id - n < |rows| && listed[j].user == ImportedUser(rows[listed[j].id - n]) {
      var row := listed[j];
      assert Selects(Highlight(IdRange(n, n + count)), row.id, row.user);
      assert row.user == s2.users[row.id];
    }
  }

  /** Following the import's redirect shows exactly the imported rows, on a
      single page, and counts them. */
  lemma ImportThenList(s: Store, rows: seq<CsvRow>)
    requires Valid(s) && |rows| > 0
    requires Numerals.WithinDigitLimit(s.nextId) && Numerals.WithinDigitLimit(s.nextId + |rows| - 1)
    ensures var r := UploadUsersCsv(s, rows);
            var newIds := IdsParam(IdRun(s.nextId, |rows|));
            && r.1.url == ImportUrlPrefix + newIds
            && ShowsImported(UsersTablePage(r.0, Query(None, None, None, Some(newIds))), rows, s.nextId)
  {
    var n, count := s.nextId, |rows|;
    ImportShows(s, rows, n, count);
  }

  /** The listing half of `ImportThenList`, over the first new id `n` and the row count. */
  lemma ImportShows(s: Store, rows: seq<CsvRow>, n: int, count: nat)
    requires Valid(s) && n == s.nextId && count == |rows| && count > 0
    requires Numerals.WithinDigitLimit(n) && Numerals.WithinDigitLimit(n + count - 1)
    ensures ShowsImported(UsersTablePage(UploadUsersCsv(s, rows).0, Query(None, None, None, Some(IdsParam(IdRun(n, count))))), rows, n)
  {
    ImportParamParses(n, count);
    ImportedListed(s, rows, n, count);
    HighlightedTablePage(InsertRows(s, rows).0, IdsParam(IdRun(n, count)), IdRange(n, n + count));
  }

  /** After the import, listing by the block of new ids lists exactly the imported rows. */
  lemma ImportedListed(s: Store, rows: seq<CsvRow>, n: int, count: nat)
    requires Valid(s) && n == s.nextId && count == |rows|
    ensures var s2, added := InsertRows(s, rows).0, IdRange(n, n + count);
            && RowIds(Matching(s2, Highlight(added))) == added
            && AllImported(Matching(s2, Highlight(added)), rows, n)
  {
    ImportedIdsListed(s, rows, n, count);
    ListedRowsImported(s, rows, n, count);
  }
}

=== FILE: directory.dfy ===
/** The `users` table of the directory and the three handlers that change one
    row at a time: `add_user_form`, `update_user` and `delete_user`
    (backend/main.py). SQL becomes an immutable map from id to row; uploaded
    files are reduced to the filenames the browser sent. */
module Directory {
  import opened Wrappers
  import Text
  import opened Http

  /** `UPLOAD_DIR`, where uploaded images and resumes are stored. */
  const UploadDir := "static/uploads"

  /** Where every directory mutation sends the browser. */
  const TableUrl := "/users_table/"

  /** Where `add_user_form` sends the browser when the email is taken. */
  const DuplicateUrl := "/users_table/?msg=User already exists"

  /** One row of `users`; the two paths are SQL `NULL` when nothing was uploaded. */
  datatype User = User(
    name: string,
    email: string,
    age: int,
    city: string,
    gender: string,
    skills: string,
    imagePath: Option<string>,
    pdfPath: Option<string>)

  /** The table, and the next value its `SERIAL` id sequence hands out. */
  datatype Store = Store(users: map<int, User>, nextId: int)

  /** Every id was drawn from the sequence, which starts at 1 and only grows. */
  predicate Valid(s: Store)
  {
    s.nextId >= 1 && forall id :: id in s.users ==> 1 <= id < s.nextId
  }

  /** The fields of the add and update forms; `skills` is the optional
      multi-valued form field (`None` when the browser sent none). */
  datatype UserForm = UserForm(
    name: string,
    email: string,
    age: int,
    city: string,
    gender: string,
    skills: Option<seq<string>>)

  /** `",".join(skills) if skills else ""`. */
  function SkillsField(skills: Option<seq<string>>): string
  {
    match skills
    case None => ""
    case Some(list) => if |list| == 0 then "" else Text.Join(list, ',')
  }

  /** The stored skills text gives back the ticked skills when none of them
      contains a comma; no skills are stored as the empty text. */
  lemma SkillsFieldRoundTrip(skills: Option<seq<string>>)
    requires skills.Some? ==> forall i :: 0 <= i < |skills.value| ==> ',' !in skills.value[i]
    ensures skills.None? || |skills.value| == 0 <==> SkillsField(skills) == "" && !(skills.Some? && skills.value == [""])
    ensures skills.Some? && |skills.value| > 0 ==> Text.Split(SkillsField(skills), ',') == skills.value
  {
    if skills.Some? && |skills.value| > 0 {
      Text.JoinThenSplit(skills.value, ',');
    }
  }

  /** `os.path.join(UPLOAD_DIR, filename)`: an absolute filename replaces the directory. */
  function UploadPath(filename: string): (p: string)
    ensures |filename| > 0 && filename[0] == '/' ==> p == filename
    ensures !(|filename| > 0 && filename[0] == '/') ==> p == UploadDir + "/" + filename
  {
    if |filename| > 0 && filename[0] == '/' then filename else UploadDir + "/" + filename
  }

  /** Some row already uses this email (`SELECT id FROM users WHERE email = %s`). */
  predicate EmailTaken(s: Store, email: string)
  {
    exists id :: id in s.users && s.users[id].email == email
  }

  /** The row `add_user_form` inserts once its uploads are saved; `if image:`
      tests the upload object, not its filename, so every upload sent is stored. */
  function NewUser(form: UserForm, image: Option<string>, pdf: Option<string>): User
  {
    User(form.name, form.email, form.age, form.city, form.gender, SkillsField(form.skills),
         if image.Some? then Some(UploadPath(image.value)) else None,
         if pdf.Some? then Some(UploadPath(pdf.value)) else None)
  }

  /** A path ending in `/` names a directory, and opening it for writing
      raises (`IsADirectoryError`). An upload with an empty filename joins
      to such a path, `static/uploads/`. */
  predicate NamesDirectory(path: string)
  {
    |path| > 0 && path[|path| - 1] == '/'
  }

  /** Why a handler raised instead of redirecting, answered with a 500. */
  datatype HandlerError = WriteFailed(path: string)

  /** The first upload a handler cannot save: the image is written before the resume. */
  function FailedUpload(image: Option<string>, pdf: Option<string>): (p: Option<string>)
    ensures p.Some? ==> NamesDirectory(p.value)
    ensures p.Some? ==> (image.Some? && p.value == UploadPath(image.value)) || (pdf.Some? && p.value == UploadPath(pdf.value))
    ensures image.Some? && NamesDirectory(UploadPath(image.value)) ==> p == Some(UploadPath(image.value))
    ensures p.None? <==>
      (image.None? || !NamesDirectory(UploadPath(image.value))) && (pdf.None? || !NamesDirectory(UploadPath(pdf.value)))
  {
    if image.Some? && NamesDirectory(UploadPath(image.value)) then Some(UploadPath(image.value))
    else if pdf.Some? && NamesDirectory(UploadPath(pdf.value)) then Some(UploadPath(pdf.value))
    else None
  }

  /** `add_user_form`: an upload that cannot be saved fails the request
      before the table is touched; otherwise a taken email leaves the table
      alone and reports it, and a new email adds exactly one row, with the
      next sequence id. */
  function AddUserForm(s: Store, form: UserForm, image: Option<string>, pdf: Option<string>): (r: (Store, Result<Response, HandlerError>))
    ensures r.1.Failure? <==> FailedUpload(image, pdf).Some?
    ensures r.1.Failure? ==> r.0 == s && r.1.error == WriteFailed(FailedUpload(image, pdf).value)
    ensures r.1.Success? && EmailTaken(s, form.email) ==> r.0 == s && r.1.value == RedirectTo(DuplicateUrl)
    ensures r.1.Success? && !EmailTaken(s, form.email) ==>
      && r.1.value == RedirectTo(TableUrl)
      && r.0.users.Keys == s.users.Keys + {s.nextId}
      && r.0.users[s.nextId] == NewUser(form, image, pdf)
      && r.0.nextId == s.nextId + 1
    ensures Valid(s) && r.1.Success? && !EmailTaken(s, form.email) ==>
      && s.nextId !in s.users
      && |r.0.users| == |s.users| + 1
      && (forall id :: id in s.users ==> r.0.users[id] == s.users[id])
    ensures Valid(s) ==> Valid(r.0)
  {
    if FailedUpload(image, pdf).Some? then
      (s, Failure(WriteFailed(FailedUpload(image, pdf).value)))
    else if EmailTaken(s, form.email) then
      (s, Success(RedirectTo(DuplicateUrl)))
    else
      (Store(s.users[s.nextId := NewUser(form, image, pdf)], s.nextId + 1), Success(RedirectTo(TableUrl)))
  }

  /** An image sent without a filename fails the request and adds no row,
      whatever the email and the resume. */
  lemma EmptyFilenameAddsNothing(s: Store, form: UserForm, pdf: Option<string>)
    ensures AddUserForm(s, form, Some(""), pdf) == (s, Failure(WriteFailed(UploadDir + "/")))
  {
    var path := UploadPath("");
    assert path == UploadDir + "/";
    assert NamesDirectory(path);
    assert FailedUpload(Some(""), pdf) == Some(path);
  }

  /** Submitting the same form twice adds at most one row: the second
      submission finds its email taken, or fails on the same upload. */
  lemma AddTwiceAddsOnce(s: Store, form: UserForm, image: Option<string>, pdf: Option<string>)
    ensures var once := AddUserForm(s, form, image, pdf).0;
            var twice := AddUserForm(once, form, image, pdf);
            && twice.0 == once
            && (FailedUpload(image, pdf).None? ==> twice.1 == Success(RedirectTo(DuplicateUrl)))
  {
    var once := AddUserForm(s, form, image, pdf).0;
    if FailedUpload(image, pdf).None? && !EmailTaken(s, form.email) {
      assert once.users[s.nextId].email == form.email;
    }
  }

  /** An upload that `update_user` stores: present and with a non-empty filename. */
  predicate Uploaded(file: Option<string>)
  {
    file.Some? && file.value != ""
  }

  /** `COALESCE(%s, path)`: the new upload's path, or the stored one when none was sent. */
  function KeepUnlessUploaded(file: Option<string>, stored: Option<string>): (p: Option<string>)
    ensures !Uploaded(file) ==> p == stored
    ensures Uploaded(file) ==> p == Some(UploadPath(file.value))
  {
    if Uploaded(file) then Some(UploadPath(file.value)) else stored
  }

  /** The uploads `update_user` writes: those with a non-empty filename (`if image and image.filename`). */
  function Written(file: Option<string>): (w: Option<string>)
    ensures w.Some? <==> Uploaded(file)
    ensures w.Some? ==> w == file
  {
    if Uploaded(file) then file else None
  }

  /** `update_user`: each upload with a filename is written first, image
      before resume, and one that names a directory fails the request with
      the table untouched. Otherwise the six form fields overwrite the row
      with that id, the file paths change only for a new upload, and no
      other row changes; an id with no row matches nothing. Email
      uniqueness is not checked. */
  function UpdateUser(s: Store, id: int, form: UserForm, image: Option<string>, pdf: Option<string>): (r: (Store, Result<Response, HandlerError>))
    ensures r.1.Failure? <==>
      (Uploaded(image) && NamesDirectory(UploadPath(image.value))) || (Uploaded(pdf) && NamesDirectory(UploadPath(pdf.value)))
    ensures Uploaded(image) && NamesDirectory(UploadPath(image.value)) ==> r.1 == Failure(WriteFailed(UploadPath(image.value)))
    ensures !(Uploaded(image) && NamesDirectory(UploadPath(image.value))) && Uploaded(pdf) && NamesDirectory(UploadPath(pdf.value)) ==>
      r.1 == Failure(WriteFailed(UploadPath(pdf.value)))
    ensures r.1.Failure? ==> r.0 == s
    ensures r.1.Success? ==> r.1.value == RedirectTo(TableUrl)
    ensures r.0.users.Keys == s.users.Keys && r.0.nextId == s.nextId
    ensures id !in s.users ==> r.0 == s
    ensures id in s.users && r.1.Success? ==>
      var old_ := s.users[id];
      var new_ := r.0.users[id];
      && (forall other :: other in s.users && other != id ==> r.0.users[other] == s.users[other])
      && new_.name == form.name && new_.email == form.email && new_.age == form.age
      && new_.city == form.city && new_.gender == form.gender && new_.skills == SkillsField(form.skills)
      && (!Uploaded(image) ==> new_.imagePath == old_.imagePath)
      && (!Uploaded(pdf) ==> new_.pdfPath == old_.pdfPath)
      && (Uploaded(image) ==> new_.imagePath == Some(UploadPath(image.value)))
      && (Uploaded(pdf) ==> new_.pdfPath == Some(UploadPath(pdf.value)))
    ensures Valid(s) ==> Valid(r.0)
  {
    var failed := FailedUpload(Written(image), Written(pdf));
    if failed.Some? then
      (s, Failure(WriteFailed(failed.value)))
    else if id in s.users then
      var old_ := s.users[id];
      var new_ := User(form.name, form.email, form.age, form.city, form.gender, SkillsField(form.skills),
                       KeepUnlessUploaded(image, old_.imagePath), KeepUnlessUploaded(pdf, old_.pdfPath));
      (Store(s.users[id := new_], s.nextId), Success(RedirectTo(TableUrl)))
    else
      (s, Success(RedirectTo(TableUrl)))
  }

  /** An image named `/` cannot be written, so the update fails and changes
      nothing, whatever the row, the form and the resume. */
  lemma SlashFilenameUpdatesNothing(s: Store, id: int, form: UserForm, pdf: Option<string>)
    ensures UpdateUser(s, id, form, Some("/"), pdf) == (s, Failure(WriteFailed("/")))
  {
    assert Uploaded(Some("/"));
    assert UploadPath("/") == "/";
  }

  /** Repeating an update without new uploads always succeeds, and after a
      successful update it changes nothing further; after a failed one it
      applies the form fields the failure skipped. */
  lemma UpdateIdempotent(s: Store, id: int, form: UserForm, image: Option<string>, pdf: Option<string>)
    ensures var first := UpdateUser(s, id, form, image, pdf);
            var again := UpdateUser(first.0, id, form, None, None);
            && again.1 == Success(RedirectTo(TableUrl))
            && (first.1.Success? ==> again.0 == first.0)
            && (first.1.Failure? ==> again.0 == UpdateUser(s, id, form, None, None).0)
  {
  }

  /** `delete_user`: the row with that id is gone, every other row is as it
      was, and deleting an absent id leaves the table unchanged. */
  function DeleteUser(s: Store, id: int): (r: (Store, Response))
    ensures r.1 == RedirectTo(TableUrl)
    ensures r.0.users.Keys == s.users.Keys - {id}
    ensures forall other :: other in r.0.users ==> r.0.users[other] == s.users[other]
    ensures id !in s.users ==> r.0 == s
    ensures id in s.users ==> |r.0.users| == |s.users| - 1
    ensures Valid(s) ==> Valid(r.0)
  {
    if id in s.users then (Store(s.users - {id}, s.nextId), RedirectTo(TableUrl)) else (s, RedirectTo(TableUrl))
  }

  /** Deleting the row an add just inserted gives back the rows from before the add. */
  lemma DeleteUndoesAdd(s: Store, form: UserForm, image: Option<string>, pdf: Option<string>)
    requires Valid(s)
    ensures var added := AddUserForm(s, form, image, pdf).0;
            DeleteUser(added, s.nextId).0.users == s.users
  {
    var added := AddUserForm(s, form, image, pdf).0;
    var back := DeleteUser(added, s.nextId).0.users;
    assert back.Keys == s.users.Keys;
  }
}

=== FILE: download.dfy ===
/** `download_user_pdf` (backend/main.py): draw the profile page, merge it
    with the stored resume when there is one, and serve the merged file.
    The file system is a map from path to file content; a PDF file is the
    list of its pages. */
module Download {
  import opened Wrappers
  import Numerals
  import opened Directory
  import opened Profile

  const DownloadDir := "static/downloads/"
  const PdfMediaType := "application/pdf"

  /** A page of a PDF file: one drawn by the profile generator, or one that
      came from elsewhere and is copied verbatim. */
  datatype Sheet = Drawn(ops: Profile.Ops) | Foreign(content: string)

  datatype FileContent = PdfFile(sheets: seq<Sheet>) | OtherFile(bytes: string)

  type Disk = map<string, FileContent>

  function ProfilePath(id: int): string
  {
    DownloadDir + "profile_" + Numerals.IntToString(id) + ".pdf"
  }

  function FinalPath(id: int): string
  {
    DownloadDir + "user_" + Numerals.IntToString(id) + "_full.pdf"
  }

  /** The scratch profile file and the merged file never share a path: the
      two names differ right after the directory. */
  lemma PathsDiffer(id: int, other: int)
    ensures ProfilePath(id) != FinalPath(other)
  {
    assert ProfilePath(id)[|DownloadDir|] == 'p';
    assert FinalPath(other)[|DownloadDir|] == 'u';
  }

  /** The resume is missing when the stored path is unset, empty, or names no file. */
  predicate ResumeMissing(u: User, disk: Disk)
  {
    var p := NormalizePath(u.pdfPath);
    p == "" || p !in disk
  }

  datatype DownloadError = UserNotFound | NotAPdf(path: string)

  /** A file response: where the file is, its media type and the name the browser saves it under. */
  datatype FileResponse = FileResponse(path: string, mediaType: string, filename: string)

  /** The page list `PdfMerger` writes: the profile, then every page of the
      resume when it is present. Appending a file that is not a PDF fails. */
  function Merge(profile: Sheet, resume: Option<FileContent>): (r: Result<seq<Sheet>, FileContent>)
    ensures resume.None? ==> r == Success([profile])
    ensures resume.Some? && resume.value.PdfFile? ==> r.Success? && |r.value| == 1 + |resume.value.sheets| && r.value[0] == profile && r.value[1..] == resume.value.sheets
    ensures resume.Some? && resume.value.OtherFile? <==> r.Failure?
  {
    match resume
    case None => Success([profile])
    case Some(PdfFile(sheets)) => Success([profile] + sheets)
    case Some(other) => Failure(other)
  }

  /** `download_user_pdf(user_id)`: the files it leaves behind and what it serves. */
  function DownloadUserPdf(s: Store, id: int, disk: Disk): (r: (Disk, Result<FileResponse, DownloadError>))
    ensures id !in s.users <==> r.1 == Failure(UserNotFound)
    ensures id !in s.users ==> r.0 == disk
    ensures r.1.Success? ==>
              && r.1.value == FileResponse(FinalPath(id), PdfMediaType, s.users[id].name + ".pdf")
              && FinalPath(id) in r.0 && r.0[FinalPath(id)].PdfFile?
    ensures r.1.Failure? && r.1.error.NotAPdf? ==>
              id in s.users && !ResumeMissing(s.users[id], disk)
              && r.1.error.path == NormalizePath(s.users[id].pdfPath)
    ensures forall p :: p in disk && p != ProfilePath(id) && p != FinalPath(id) ==> p in r.0 && r.0[p] == disk[p]
    ensures r.0.Keys <= disk.Keys + {ProfilePath(id), FinalPath(id)}
  {
    if id !in s.users then (disk, Failure(UserNotFound))
    else
      var u := s.users[id];
      var resumePath := NormalizePath(u.pdfPath);
      var missing := ResumeMissing(u, disk);
      var profile := GenerateProfile(u, missing, disk.Keys);
      var written := disk[ProfilePath(id) := PdfFile([Drawn(profile)])];
      var resume := if missing then None else Some(written[resumePath]);
      match Merge(Drawn(profile), resume)
      case Failure(_) => (written, Failure(NotAPdf(resumePath)))
      case Success(sheets) =>
        (written[FinalPath(id) := PdfFile(sheets)], Success(FileResponse(FinalPath(id), PdfMediaType, u.name + ".pdf")))
  }

  /** The merged file a successful download leaves at its final path. */
  function Served(r: (Disk, Result<FileResponse, DownloadError>)): seq<Sheet>
    requires r.1.Success? ==> r.1.value.path in r.0 && r.0[r.1.value.path].PdfFile?
  {
    if r.1.Success? then r.0[r.1.value.path].sheets else []
  }

  /** The served file starts with the profile page; without a resume it is
      that page alone, and with one it is that page followed by every page
      of the resume, in order. A resume that exists but is not a PDF is the
      only way a download of an existing user fails. */
  lemma DownloadContents(s: Store, id: int, disk: Disk)
    requires id in s.users
    ensures var u := s.users[id];
            var r := DownloadUserPdf(s, id, disk);
            var p := NormalizePath(u.pdfPath);
            var profile := Drawn(GenerateProfile(u, ResumeMissing(u, disk), disk.Keys));
            && (ResumeMissing(u, disk) ==> r.1.Success? && Served(r) == [profile])
            && (!ResumeMissing(u, disk) && p != ProfilePath(id) && disk[p].PdfFile? ==>
                  r.1.Success? && Served(r) == [profile] + disk[p].sheets)
            && (!ResumeMissing(u, disk) && p != ProfilePath(id) && disk[p].OtherFile? <==> r.1.Failure?)
  {
  }

  /** The first page of every served file says "resume not uploaded" exactly
      when the user has no resume on disk. */
  lemma ResumeNoteIffMissing(s: Store, id: int, disk: Disk)
    requires id in s.users
    ensures var r := DownloadUserPdf(s, id, disk);
            r.1.Success? ==>
              && |Served(r)| >= 1 && Served(r)[0].Drawn?
              && (ResumeNote in Render(Served(r)[0].ops, FreshPen) <==> ResumeMissing(s.users[id], disk))
  {
    var u := s.users[id];
    WarningsIffMissing(u, ResumeMissing(u, disk), disk.Keys);
  }

  /** Downloading again serves the same file, as long as the user's stored
      paths do not point into the download directory's two generated names. */
  lemma DownloadTwice(s: Store, id: int, disk: Disk)
    requires id in s.users
    requires NormalizePath(s.users[id].pdfPath) !in {ProfilePath(id), FinalPath(id)}
    requires NormalizePath(s.users[id].imagePath) !in {ProfilePath(id), FinalPath(id)}
    requires LogoPath !in {ProfilePath(id), FinalPath(id)}
    requires PlaceholderImage !in {ProfilePath(id), FinalPath(id)}
    ensures var r := DownloadUserPdf(s, id, disk);
            var again := DownloadUserPdf(s, id, r.0);
            r.1.Success? ==> again.1 == r.1 && Served(again) == Served(r)
  {
    var u := s.users[id];
    var r := DownloadUserPdf(s, id, disk);
    if r.1.Success? {
      PathsDiffer(id, id);
      var d2 := r.0;
      assert d2.Keys == disk.Keys + {ProfilePath(id), FinalPath(id)};
      assert ResumeMissing(u, d2) == ResumeMissing(u, disk);
      assert ChooseImage(u, d2.Keys) == ChooseImage(u, disk.Keys);
      assert (LogoPath in d2.Keys) == (LogoPath in disk.Keys);
      assert GenerateProfile(u, ResumeMissing(u, d2), d2.Keys) == GenerateProfile(u, ResumeMissing(u, disk), disk.Keys);
    }
  }

  const Jane := User("Jane Doe", "jane@x.com", 30, "Springfield", "F", "Go,SQL", None, None)

  /** A record with neither photo nor resume, on a disk that has no
      placeholder image either: one page, carrying both warnings and the six
      values in their rows. */
  lemma JaneWithoutFiles()
    ensures var r := DownloadUserPdf(Store(map[1 := Jane], 2), 1, map[]);
            && r.1.Success? && |Served(r)| == 1 && Served(r)[0].Drawn?
            && var marks := Render(Served(r)[0].ops, FreshPen);
               && ImageNote in marks && ResumeNote in marks
               && TextMark(150, 414, "Jane Doe", Helvetica, 12, Black, false) in marks
               && TextMark(150, 374, "30", Helvetica, 12, Black, false) in marks
               && TextMark(150, 314, "Go,SQL", Helvetica, 12, Black, false) in marks
  {
    var disk: Disk := map[];
    DownloadContents(Store(map[1 := Jane], 2), 1, disk);
    ProfileRenders(Jane, true, disk.Keys);
    assert Numerals.IntToString(30) == "30";
    var t := TableMarks(Jane);
    assert t[1] == TextMark(150, 414, "Jane Doe", Helvetica, 12, Black, false);
    assert t[5] == TextMark(150, 374, "30", Helvetica, 12, Black, false);
    assert t[11] == TextMark(150, 314, "Go,SQL", Helvetica, 12, Black, false);
  }

  const JaneResume := "static/uploads/jane_cv.pdf"
  const JanePhoto := "static/uploads/jane.png"

  /** The same record with a three-page resume and a photo on disk: four
      pages, the resume's after the profile, and no warning on the profile. */
  lemma JaneWithFiles()
    ensures var u := Jane.(imagePath := Some(JanePhoto), pdfPath := Some(JaneResume));
            var resume := [Foreign("1"), Foreign("2"), Foreign("3")];
            var disk: Disk := map[JaneResume := PdfFile(resume), JanePhoto := OtherFile("")];
            var r := DownloadUserPdf(Store(map[1 := u], 2), 1, disk);
            && r.1.Success? && |Served(r)| == 4 && Served(r)[1..] == resume && Served(r)[0].Drawn?
            && var marks := Render(Served(r)[0].ops, FreshPen);
               ImageNote !in marks && ResumeNote !in marks
  {
    var u := Jane.(imagePath := Some(JanePhoto), pdfPath := Some(JaneResume));
    var resume := [Foreign("1"), Foreign("2"), Foreign("3")];
    var disk: Disk := map[JaneResume := PdfFile(resume), JanePhoto := OtherFile("")];
    var s := Store(map[1 := u], 2);
    assert NormalizePath(u.pdfPath) == JaneResume;
    assert NormalizePath(u.imagePath) == JanePhoto;
    assert ProfilePath(1)[|DownloadDir|] == 'p';
    assert JaneResume[|DownloadDir|] != 'p';
    DownloadContents(s, 1, disk);
    WarningsIffMissing(u, false, disk.Keys);
  }
}

=== FILE: http.dfy ===
/** What the handlers send back, reduced to what the model needs: a redirect
    target, its status code and the change it asks the browser to make to its
    cookies. Templates and response bodies are not modelled. */
module Http {

  /** `303 See Other`, the status of every redirect the application issues. */
  const SeeOther := 303

  /** `401 Unauthorized`, raised by the session gate. */
  const Unauthorized := 401

  datatype CookieChange =
    | KeepCookies
    | SetCookie(name: string, value: string, httpOnly: bool)
    | DeleteCookie(name: string)

  datatype Response = Redirect(url: string, status: int, cookie: CookieChange)

  /** `RedirectResponse(url=..., status_code=303)` without cookie changes. */
  function RedirectTo(url: string): Response
  {
    Redirect(url, SeeOther, KeepCookies)
  }

  /** The browser's cookie jar after it has processed a response's cookie change. */
  function ApplyCookie(jar: map<string, string>, change: CookieChange): (r: map<string, string>)
    ensures change.SetCookie? ==> change.name in r && r[change.name] == change.value
    ensures change.DeleteCookie? ==> change.name !in r
    ensures forall n :: n in jar && !(change.SetCookie? && n == change.name) && !(change.DeleteCookie? && n == change.name)
                        ==> n in r && r[n] == jar[n]
    ensures forall n :: n in r ==> n in jar || (change.SetCookie? && n == change.name)
  {
    match change
    case KeepCookies => jar
    case SetCookie(name, value, _) => jar[name := value]
    case DeleteCookie(name) => jar - {name}
  }
}

=== FILE: listing.dfy ===
/** The two listing handlers of backend/main.py, `/users/` and
    `/users_table/` (both named `list_users`): case-insensitive search over
    five columns, `ORDER BY id` with `LIMIT`/`OFFSET` pagination, and the
    branch that shows only the rows whose ids arrive in `new_ids`. */
module Listing {
  import opened Wrappers
  import Text
  import Numerals
  import opened Directory

  /** Default `per_page` of `/users/` and of `/users_table/`. */
  const UsersPerPage := 12
  const TablePerPage := 4

  /** One result row: its id and its columns. */
  datatype Row = Row(id: int, user: User)

  /** Which rows a query keeps: the search filter, or the highlighted ids. */
  datatype Selector = Search(q: string) | Highlight(ids: set<int>)

  /** The `ILIKE '%q%'` filter over name, email, city, gender and skills;
      an empty `q` adds no filter at all. */
  predicate MatchesSearch(u: User, q: string)
  {
    || q == ""
    || Text.ContainsIgnoringCase(u.name, q)
    || Text.ContainsIgnoringCase(u.email, q)
    || Text.ContainsIgnoringCase(u.city, q)
    || Text.ContainsIgnoringCase(u.gender, q)
    || Text.ContainsIgnoringCase(u.skills, q)
  }

  predicate Selects(sel: Selector, id: int, u: User)
  {
    match sel
    case Search(q) => MatchesSearch(u, q)
    case Highlight(ids) => id in ids
  }

  function RowIds(rows: seq<Row>): set<int>
  {
    set k | 0 <= k < |rows| :: rows[k].id
  }

  /** Rows in strictly ascending id order. */
  predicate Ascending(rows: seq<Row>)
  {
    forall j, k :: 0 <= j < k < |rows| ==> rows[j].id < rows[k].id
  }

  /** Each row is the table's row under that id. */
  predicate FromTable(rows: seq<Row>, users: map<int, User>)
  {
    forall k :: 0 <= k < |rows| ==> rows[k].id in users && users[rows[k].id] == rows[k].user
  }

  /** The selected rows with ids in `[lo, hi)`, in ascending id order. */
  function Scan(users: map<int, User>, sel: Selector, lo: int, hi: int): (r: seq<Row>)
    ensures FromTable(r, users)
    ensures forall k :: 0 <= k < |r| ==> lo <= r[k].id < hi && Selects(sel, r[k].id, r[k].user)
    ensures Ascending(r)
    decreases hi - lo
  {
    if lo >= hi then []
    else
      var rest := Scan(users, sel, lo + 1, hi);
      if lo in users && Selects(sel, lo, users[lo]) then [Row(lo, users[lo])] + rest else rest
  }

  /** Putting a row in front adds exactly its id. */
  lemma RowIdsCons(row: Row, rest: seq<Row>)
    ensures RowIds([row] + rest) == {row.id} + RowIds(rest)
  {
    var r := [row] + rest;
    assert r[0].id == row.id;
    forall id | id in RowIds(rest) ensures id in RowIds(r) {
      var k :| 0 <= k < |rest| && rest[k].id == id;
      assert r[k + 1].id == id;
    }
    forall id | id in RowIds(r) ensures id == row.id || id in RowIds(rest) {
      var k :| 0 <= k < |r| && r[k].id == id;
      if k > 0 {
        assert rest[k - 1].id == id;
      }
    }
  }

  /** The scan misses no selected row: its ids are exactly the selected ids in range. */
  lemma {:induction false} ScanIds(users: map<int, User>, sel: Selector, lo: int, hi: int)
    ensures forall id :: id in RowIds(Scan(users, sel, lo, hi)) <==> lo <= id < hi && id in users && Selects(sel, id, users[id])
    decreases hi - lo
  {
    if lo < hi {
      ScanIds(users, sel, lo + 1, hi);
      if lo in users && Selects(sel, lo, users[lo]) {
        RowIdsCons(Row(lo, users[lo]), Scan(users, sel, lo + 1, hi));
      }
    }
  }

  /** `SELECT * FROM users WHERE <filter> ORDER BY id`, before `LIMIT`/`OFFSET`. */
  function Matching(s: Store, sel: Selector): seq<Row>
  {
    Scan(s.users, sel, 1, s.nextId)
  }

  /** With no search text every row is listed; with one, a row is listed
      exactly when one of the five columns contains it, ignoring case. */
  lemma SearchSelects(s: Store, q: string)
    requires Valid(s)
    ensures q == "" ==> RowIds(Matching(s, Search(q))) == s.users.Keys
    ensures forall id :: id in RowIds(Matching(s, Search(q))) <==>
      id in s.users &&
      (q == "" || Text.ContainsIgnoringCase(s.users[id].name, q) || Text.ContainsIgnoringCase(s.users[id].email, q)
               || Text.ContainsIgnoringCase(s.users[id].city, q) || Text.ContainsIgnoringCase(s.users[id].gender, q)
               || Text.ContainsIgnoringCase(s.users[id].skills, q))
  {
    ScanIds(s.users, Search(q), 1, s.nextId);
  }

  /** The highlight branch returns exactly the table's rows whose ids were asked for. */
  lemma HighlightSelects(s: Store, ids: set<int>)
    requires Valid(s)
    ensures forall id :: id in RowIds(Matching(s, Highlight(ids))) <==> id in ids && id in s.users
  {
    ScanIds(s.users, Highlight(ids), 1, s.nextId);
  }

  datatype ListError =
    | InvalidIdList          // `int(...)` of a `new_ids` piece raises ValueError
    | DivisionByZero         // `per_page == 0` in the page count
    | NegativeLimitOrOffset  // Postgres rejects a negative LIMIT or OFFSET

  /** One page of rows and the page count shown under it. */
  datatype Page = Page(rows: seq<Row>, totalPages: int)

  /** `rows[offset : offset + limit]`, clamped to the rows there are. */
  function Window(rows: seq<Row>, offset: nat, limit: nat): (w: seq<Row>)
    ensures |w| <= limit
    ensures offset >= |rows| ==> w == []
    ensures forall k :: 0 <= k < |w| ==> offset + k < |rows| && w[k] == rows[offset + k]
    ensures offset + limit <= |rows| ==> |w| == limit
    ensures |w| == if offset >= |rows| then 0 else if limit < |rows| - offset then limit else |rows| - offset
    ensures w == rows[Clamp(offset, |rows|)..Clamp(offset + limit, |rows|)]
  {
    var lo := if offset < |rows| then offset else |rows|;
    var hi := if offset + limit < |rows| then offset + limit else |rows|;
    rows[lo..hi]
  }

  /** `i` moved into `[0, n]`: where a slice bound lands in a list of `n` rows. */
  function Clamp(i: int, n: nat): (c: nat)
    ensures c <= n
    ensures 0 <= i <= n ==> c == i
    ensures i > n ==> c == n
  {
    if i < 0 then 0 else if i < n then i else n
  }

  /** `(total + per_page - 1) // per_page` is the ceiling of `total / per_page`. */
  lemma PageCountIsCeiling(total: nat, perPage: int)
    requires perPage > 0
    ensures var pages := (total + perPage - 1) / perPage;
            pages >= 0 && (pages - 1) * perPage < total <= pages * perPage
  {
    var pages := (total + perPage - 1) / perPage;
    var rem := (total + perPage - 1) % perPage;
    assert pages * perPage + rem == total + perPage - 1;
    assert (pages - 1) * perPage == pages * perPage - perPage;
  }

  /** The count query, the page count and `LIMIT per_page OFFSET (page-1)*per_page`. */
  function Paginate(rows: seq<Row>, page: int, perPage: int): (r: Result<Page, ListError>)
    ensures perPage == 0 <==> r == Failure(DivisionByZero)
    ensures r.Success? <==> perPage > 0 && page >= 1
    ensures r.Success? ==>
      var offset := (page - 1) * perPage;
      var p := r.value;
      && p.totalPages >= 0
      && (p.totalPages - 1) * perPage < |rows| <= p.totalPages * perPage
      && |p.rows| <= perPage
      && (forall k :: 0 <= k < |p.rows| ==> offset + k < |rows| && p.rows[k] == rows[offset + k])
      && p.rows == rows[Clamp(offset, |rows|)..Clamp(offset + perPage, |rows|)]
      && (page < p.totalPages ==> |p.rows| == perPage)
      && (page > p.totalPages ==> p.rows == [])
  {
    if perPage == 0 then Failure(DivisionByZero)
    else
      var totalPages := (|rows| + perPage - 1) / perPage;
      var offset := (page - 1) * perPage;
      OffsetSign(page, perPage);
      if perPage < 0 || offset < 0 then Failure(NegativeLimitOrOffset)
      else
        PageFacts(rows, page, perPage, totalPages, offset);
        Success(Page(Window(rows, offset, perPage), totalPages))
  }

  /** With a positive page size the offset is negative exactly before page 1. */
  lemma OffsetSign(page: int, perPage: int)
    ensures perPage > 0 ==> ((page - 1) * perPage < 0 <==> page < 1)
  {
    if perPage > 0 && page >= 1 {
      MulMonotone(0, page - 1, perPage);
    }
    if perPage > 0 && page < 1 {
      MulMonotone(page - 1, -1, perPage);
    }
  }

  /** What the window at `offset` and the page count say about one page. */
  lemma PageFacts(rows: seq<Row>, page: int, perPage: int, totalPages: int, offset: nat)
    requires perPage > 0 && page >= 1
    requires totalPages == (|rows| + perPage - 1) / perPage && offset == (page - 1) * perPage
    ensures var w := Window(rows, offset, perPage);
      && totalPages >= 0
      && (totalPages - 1) * perPage < |rows| <= totalPages * perPage
      && |w| <= perPage
      && (forall k :: 0 <= k < |w| ==> offset + k < |rows| && w[k] == rows[offset + k])
      && w == rows[Clamp(offset, |rows|)..Clamp(offset + perPage, |rows|)]
      && (page < totalPages ==> |w| == perPage)
      && (page > totalPages ==> w == [])
  {
    PageCountIsCeiling(|rows|, perPage);
    PageBounds(|rows|, page, perPage, totalPages);
  }

  /** Pages before the last are full, pages after the last start past the rows. */
  lemma PageBounds(total: nat, page: int, perPage: int, totalPages: int)
    requires perPage > 0 && page >= 1
    requires (totalPages - 1) * perPage < total <= totalPages * perPage
    ensures page < totalPages ==> (page - 1) * perPage + perPage <= total
    ensures page > totalPages ==> (page - 1) * perPage >= total
  {
    if page < totalPages {
      MulMonotone(page, totalPages - 1, perPage);
    }
    if page > totalPages {
      MulMonotone(totalPages, page - 1, perPage);
    }
  }

  lemma MulMonotone(a: int, b: int, c: int)
    requires a <= b && c >= 0
    ensures a * c <= b * c
  {
    assert b * c - a * c == (b - a) * c;
  }

  /** Concatenating pages 1 .. n gives the first `n * per_page` rows. */
  function PagesUpTo(rows: seq<Row>, perPage: nat, n: nat): seq<Row>
  {
    if n == 0 then [] else PagesUpTo(rows, perPage, n - 1) + Window(rows, (n - 1) * perPage, perPage)
  }

  lemma {:induction false} PagesUpToIsPrefix(rows: seq<Row>, perPage: nat, n: nat)
    ensures PagesUpTo(rows, perPage, n) == rows[..Clamp(n * perPage, |rows|)]
  {
    if n > 0 {
      PagesUpToIsPrefix(rows, perPage, n - 1);
      var start := (n - 1) * perPage;
      assert n * perPage == start + perPage;
      WindowExtendsPrefix(rows, start, perPage);
    }
  }

  /** The rows before a window, followed by the window, are the rows before its end. */
  lemma WindowExtendsPrefix(rows: seq<Row>, offset: nat, limit: nat)
    ensures rows[..Clamp(offset, |rows|)] + Window(rows, offset, limit) == rows[..Clamp(offset + limit, |rows|)]
  {
    var lo, hi := Clamp(offset, |rows|), Clamp(offset + limit, |rows|);
    assert rows[..hi] == rows[..lo] + rows[lo..hi];
  }

  /** Walking through every page, 1 to `total_pages`, lists every row once, in order. */
  lemma PagesCoverRows(rows: seq<Row>, perPage: int)
    requires perPage > 0
    ensures var r := Paginate(rows, 1, perPage);
            r.Success? && PagesUpTo(rows, perPage, r.value.totalPages) == rows
  {
    var r := Paginate(rows, 1, perPage);
    PagesUpToIsPrefix(rows, perPage, r.value.totalPages);
    assert rows[..|rows|] == rows;
  }

  /** `[int(x) for x in pieces]`, `None` as soon as one piece is not an integer. */
  function ParseAll(pieces: seq<string>): (r: Option<seq<int>>)
    ensures r.Some? <==> forall i :: 0 <= i < |pieces| ==> Numerals.ParseInt(pieces[i]).Some?
    ensures r.Some? ==> |r.value| == |pieces|
    ensures r.Some? ==> forall i :: 0 <= i < |pieces| ==> Numerals.ParseInt(pieces[i]) == Some(r.value[i])
  {
    if |pieces| == 0 then Some([])
    else
      match Numerals.ParseInt(pieces[0])
      case None => None
      case Some(v) =>
        match ParseAll(pieces[1..])
        case None => None
        case Some(vs) => Some([v] + vs)
  }

  function ToSet(xs: seq<int>): (s: set<int>)
    ensures forall x :: x in s <==> x in xs
  {
    set x | x in xs
  }

  /** `set(map(int, new_ids.split(",")))`. */
  function ParseIdList(newIds: string): Option<set<int>>
  {
    match ParseAll(Text.Split(newIds, ','))
    case None => None
    case Some(ids) => Some(ToSet(ids))
  }

  /** A `new_ids` text that parses names at least one id: splitting never yields zero pieces. */
  lemma ParsedIdsNonEmpty(newIds: string)
    ensures ParseIdList(newIds).Some? ==> ParseIdList(newIds).value != {}
  {
    var pieces := Text.Split(newIds, ',');
    if ParseAll(pieces).Some? {
      var values := ParseAll(pieces).value;
      assert values[0] in ToSet(values);
    }
  }

  /** What the handlers hand to their templates. */
  datatype ListingView = ListingView(users: seq<Row>, page: int, totalPages: int, highlighted: set<int>)

  /** The body both `list_users` handlers share: the highlight branch when
      `new_ids` names ids, the search-and-page branch otherwise. */
  function ListUsers(s: Store, q: string, page: int, perPage: int, newIds: string): (r: Result<ListingView, ListError>)
    ensures newIds != "" && ParseIdList(newIds).None? ==> r == Failure(InvalidIdList)
    ensures newIds != "" && ParseIdList(newIds).Some? ==>
      && r.Success?
      && r.value.highlighted == ParseIdList(newIds).value != {}
      && r.value.users == Matching(s, Highlight(r.value.highlighted))
      && r.value.totalPages == 1
    ensures newIds == "" ==>
      && r.Success? == (perPage > 0 && page >= 1)
      && (perPage == 0 ==> r == Failure(DivisionByZero))
      && (r.Success? ==> r.value.highlighted == {})
      && (r.Success? ==> Paginate(Matching(s, Search(q)), page, perPage) == Success(Page(r.value.users, r.value.totalPages)))
  {
    ParsedIdsNonEmpty(newIds);
    var highlighted := if newIds != "" then ParseIdList(newIds) else Some({});
    match highlighted
    case None => Failure(InvalidIdList)
    case Some(ids) =>
      if ids != {} then
        Success(ListingView(Matching(s, Highlight(ids)), page, 1, ids))
      else
        match Paginate(Matching(s, Search(q)), page, perPage)
        case Failure(e) => Failure(e)
        case Success(p) => Success(ListingView(p.rows, page, p.totalPages, {}))
  }

  /** The query string of a listing request; absent parameters take the handler's defaults. */
  datatype Query = Query(q: Option<string>, page: Option<int>, perPage: Option<int>, newIds: Option<string>)

  /** `GET /users/`, 12 rows per page by default. */
  function UsersPage(s: Store, query: Query): (r: Result<ListingView, ListError>)
    ensures query.perPage.None? && query.newIds.None? && query.page.None? ==>
      r.Success? && |r.value.users| <= UsersPerPage
  {
    ListUsers(s, query.q.GetOr(""), query.page.GetOr(1), query.perPage.GetOr(UsersPerPage), query.newIds.GetOr(""))
  }

  /** What `/users_table/` renders: the listing and how many ids were highlighted. */
  datatype TablePage = TablePage(listing: ListingView, newUsersCount: nat)

  /** `GET /users_table/`, 4 rows per page by default, with `new_users_count`
      the number of distinct ids named (whether or not they have rows). */
  function UsersTablePage(s: Store, query: Query): (r: Result<TablePage, ListError>)
    ensures query.perPage.None? && query.newIds.None? && query.page.None? ==>
      r.Success? && |r.value.listing.users| <= TablePerPage
    ensures r.Success? ==> r.value.newUsersCount == |r.value.listing.highlighted|
  {
    match ListUsers(s, query.q.GetOr(""), query.page.GetOr(1), query.perPage.GetOr(TablePerPage), query.newIds.GetOr(""))
    case Failure(e) => Failure(e)
    case Success(listing) => Success(TablePage(listing, |listing.highlighted|))
  }
}

=== FILE: numerals.dfy ===
/** Decimal text for integers with Python's semantics: `str(n)` and `int(s)`. */
module Numerals {
  import opened Wrappers

  predicate IsDigit(c: char)
  {
    '0' <= c <= '9'
  }

  function DigitChar(d: nat): (c: char)
    requires d < 10
    ensures IsDigit(c)
  {
    ('0' as int + d) as char
  }

  function DigitValue(c: char): nat
    requires IsDigit(c)
  {
    c as int - '0' as int
  }

  predicate AllDigits(s: string)
  {
    forall i :: 0 <= i < |s| ==> IsDigit(s[i])
  }

  /** Value of a string of decimal digits, most significant first
      (leading zeros allowed, the empty string is 0). */
  function DigitsValue(s: string): nat
    requires AllDigits(s)
  {
    if |s| == 0 then 0 else DigitsValue(s[..|s| - 1]) * 10 + DigitValue(s[|s| - 1])
  }

  /** `str(n)` for a natural number: non-empty, digits only, no leading zero. */
  function NatToString(n: nat): (r: string)
    ensures |r| >= 1 && AllDigits(r)
    ensures r[0] == '0' ==> n == 0
  {
    if n < 10 then [DigitChar(n)] else NatToString(n / 10) + [DigitChar(n % 10)]
  }

  /** `str(n)`: a minus sign in front of the magnitude for negative `n`. */
  function IntToString(n: int): string
  {
    if n < 0 then "-" + NatToString(-n) else NatToString(n)
  }

  /** The magnitude `str(n)` prints after the sign. */
  function Magnitude(n: int): nat
  {
    if n < 0 then -n else n
  }

  /** CPython's default `sys.get_int_max_str_digits()`: `int()` of a
      decimal text with more digits than this raises `ValueError`, and so
      does `str(n)` of a number with more digits. */
  const MaxStrDigits := 4300

  /** `n` has few enough digits for `str(n)` and `int()` of that text. */
  predicate WithinDigitLimit(n: int)
  {
    |NatToString(Magnitude(n))| <= MaxStrDigits
  }

  /** A larger number never prints in fewer digits. */
  lemma {:induction false} NatToStringMonotone(a: nat, b: nat)
    requires a <= b
    ensures |NatToString(a)| <= |NatToString(b)|
    decreases b
  {
    if a >= 10 {
      NatToStringMonotone(a / 10, b / 10);
    }
  }

  /** Every number between two within the digit limit is within it too. */
  lemma WithinDigitLimitBetween(lo: int, n: int, hi: int)
    requires lo <= n <= hi && WithinDigitLimit(lo) && WithinDigitLimit(hi)
    ensures WithinDigitLimit(n)
  {
    if n >= 0 {
      NatToStringMonotone(n, hi);
    } else {
      NatToStringMonotone(-n, -lo);
    }
  }

  /** The digits of `str(n)` read back as `n`. */
  lemma {:induction false} NatToStringValue(n: nat)
    ensures DigitsValue(NatToString(n)) == n
    decreases n
  {
    if n >= 10 {
      NatToStringValue(n / 10);
      var r := NatToString(n);
      assert r[..|r| - 1] == NatToString(n / 10);
    }
  }

  /** The whitespace `int()` strips on both sides (ASCII part). */
  predicate IsSpace(c: char)
  {
    c == ' ' || c == '\t' || c == '\n' || c == '\r' || c == '\U{B}' || c == '\U{C}'
  }

  function StripLeading(s: string): (r: string)
    ensures |r| <= |s|
    ensures |r| > 0 ==> !IsSpace(r[0])
    decreases |s|
  {
    if |s| > 0 && IsSpace(s[0]) then StripLeading(s[1..]) else s
  }

  function StripTrailing(s: string): (r: string)
    ensures |r| <= |s|
    ensures |r| > 0 ==> !IsSpace(r[|r| - 1])
    decreases |s|
  {
    if |s| > 0 && IsSpace(s[|s| - 1]) then StripTrailing(s[..|s| - 1]) else s
  }

  /** `s.strip()` restricted to the whitespace above. */
  function Strip(s: string): string
  {
    StripTrailing(StripLeading(s))
  }

  /** A digit body `int()` accepts: digits, optionally grouped by single
      underscores, starting and ending with a digit. */
  predicate IsDigitBody(b: string)
  {
    && |b| > 0
    && IsDigit(b[0])
    && IsDigit(b[|b| - 1])
    && (forall i :: 0 <= i < |b| ==> IsDigit(b[i]) || b[i] == '_')
    && (forall i :: 0 <= i < |b| - 1 ==> !(b[i] == '_' && b[i + 1] == '_'))
  }

  /** The digits of a digit body, underscores removed. */
  function DropUnderscores(b: string): (r: string)
    requires forall i :: 0 <= i < |b| ==> IsDigit(b[i]) || b[i] == '_'
    ensures AllDigits(r)
    ensures AllDigits(b) ==> r == b
  {
    if |b| == 0 then ""
    else if b[0] == '_' then DropUnderscores(b[1..])
    else [b[0]] + DropUnderscores(b[1..])
  }

  /** The magnitude an unsigned digit body denotes, if it is one and its
      digits, underscores not counted, are within the limit. */
  function ParseBody(b: string): Option<nat>
  {
    if IsDigitBody(b) && |DropUnderscores(b)| <= MaxStrDigits then Some(DigitsValue(DropUnderscores(b))) else None
  }

  /** `int(s)` in base 10 after stripping: an optional sign, then a digit body. */
  function ParseSigned(t: string): Option<int>
  {
    if |t| > 0 && t[0] == '-' then
      match ParseBody(t[1..])
      case Some(m) => Some(-(m as int))
      case None => None
    else if |t| > 0 && t[0] == '+' then
      match ParseBody(t[1..])
      case Some(m) => Some(m)
      case None => None
    else
      match ParseBody(t)
      case Some(m) => Some(m)
      case None => None
  }

  /** `int(s)` in base 10: `None` where Python raises `ValueError`. */
  function ParseInt(s: string): Option<int>
  {
    ParseSigned(Strip(s))
  }

  /** Stripping leaves a string alone that neither starts nor ends with whitespace. */
  lemma StripUnspaced(s: string)
    requires |s| > 0 && !IsSpace(s[0]) && !IsSpace(s[|s| - 1])
    ensures Strip(s) == s
  {
  }

  /** A run of digits is a digit body that reads as its own value. */
  lemma DigitsAreBody(s: string)
    requires |s| > 0 && AllDigits(s)
    ensures IsDigitBody(s)
    ensures DigitsValue(DropUnderscores(s)) == DigitsValue(s)
  {
  }

  /** A digit string that reads as `m` parses to `m`, with or without a
      minus sign, when it has at most 4300 digits, and to an error otherwise. */
  lemma DigitsParse(digits: string, m: nat)
    requires |digits| > 0 && AllDigits(digits) && DigitsValue(digits) == m
    ensures |digits| <= MaxStrDigits ==> ParseInt(digits) == Some(m) && ParseInt("-" + digits) == Some(-(m as int))
    ensures |digits| > MaxStrDigits ==> ParseInt(digits).None? && ParseInt("-" + digits).None?
  {
    DigitsBody(digits);
    assert IsDigit(digits[0]) && IsDigit(digits[|digits| - 1]);
    UnsignedBodyParse(digits, m);
    NegatedBodyParse(digits, m);
  }

  /** A digit run is a body read as its own value, up to the digit limit. */
  lemma DigitsBody(digits: string)
    requires |digits| > 0 && AllDigits(digits)
    ensures ParseBody(digits) == if |digits| <= MaxStrDigits then Some(DigitsValue(digits)) else None
  {
    DigitsAreBody(digits);
    assert DropUnderscores(digits) == digits;
  }

  /** A body with no sign or space around it reads as itself. */
  lemma UnsignedBodyParse(digits: string, m: nat)
    requires |digits| > 0 && IsDigit(digits[0]) && IsDigit(digits[|digits| - 1])
    requires ParseBody(digits) == if |digits| <= MaxStrDigits then Some(m) else None
    ensures |digits| <= MaxStrDigits ==> ParseInt(digits) == Some(m)
    ensures |digits| > MaxStrDigits ==> ParseInt(digits).None?
  {
    StripUnspaced(digits);
  }

  /** A minus sign in front of a body that reads as `m` up to the digit
      limit reads as `-m`, and fails where the body fails. */
  lemma NegatedBodyParse(digits: string, m: nat)
    requires |digits| > 0 && IsDigit(digits[|digits| - 1])
    requires ParseBody(digits) == if |digits| <= MaxStrDigits then Some(m) else None
    ensures |digits| <= MaxStrDigits ==> ParseInt("-" + digits) == Some(-(m as int))
    ensures |digits| > MaxStrDigits ==> ParseInt("-" + digits).None?
  {
    var neg := "-" + digits;
    assert neg[0] == '-' && neg[1..] == digits;
    assert neg[|neg| - 1] == digits[|digits| - 1];
    StripUnspaced(neg);
  }

  /** `int(str(n)) == n` for every integer within the digit limit; beyond
      it, reading the text back raises. */
  lemma IntToStringParses(n: int)
    ensures ParseInt(IntToString(n)) == if WithinDigitLimit(n) then Some(n) else None
  {
    var m := Magnitude(n);
    NatToStringValue(m);
    DigitsParse(NatToString(m), m);
  }

  /** `str(n)` never contains a comma, so it survives a comma join/split. */
  lemma IntToStringHasNoComma(n: int)
    ensures ',' !in IntToString(n)
  {
    var s := IntToString(n);
    assert forall i :: 0 <= i < |s| ==> IsDigit(s[i]) || s[i] == '-';
  }
}

=== FILE: profile.dfy ===
/** `generate_profile_pdf` (backend/main.py): the profile page as the list of
    canvas operations it issues, in order, plus a small interpreter that turns
    those operations into the marks that end up on the page (text with its
    font and colour, and images). Every coordinate is a whole number of
    points: US Letter is 612 x 792 points and an inch is 72 points. */
module Profile {
  import opened Wrappers
  import Text
  import Numerals
  import opened Directory

  const PageWidth := 612
  const PageHeight := 792
  const Inch := 72

  const LogoPath := "static/images/logo.png"
  const PlaceholderImage := "static/images/no image.jpg"

  const Title := "User Profile"
  const ImageMissingText := ".......Image not uploaded......."
  const ResumeMissingText := ".......Resume not uploaded......."

  /** The photo is a 3.5 inch square, centred horizontally, its bottom edge
      4.5 inches below the top of the page. */
  const ImageSize := 7 * Inch / 2
  const ImageX := (PageWidth - ImageSize) / 2
  const ImageY := PageHeight - 9 * Inch / 2

  /** The first table row sits 0.75 inch below the photo; rows are 20 points apart. */
  const StartY := ImageY - 3 * Inch / 4
  const LineHeight := 20
  const LabelX := 80
  const ValueX := 150
  const ResumeNoteX := 220

  datatype Font = Helvetica | HelveticaBold | HelveticaOblique
  datatype Color = Black | Grey | Red

  /** The canvas calls the page is built from. */
  datatype Op =
    | SetFont(font: Font, size: int)
    | SetFill(color: Color)
    | DrawString(x: int, y: int, text: string)
    | DrawCentredString(x: int, y: int, text: string)
    | DrawImage(path: string, x: int, y: int, width: int, height: int)

  /** The canvas operations drawn on one page of a document. */
  type Ops = seq<Op>

  /** A stored path with Windows separators turned into `/`; `None` and `""` both become `""`. */
  function NormalizePath(p: Option<string>): (r: string)
    ensures '\\' !in r
    ensures |r| == |p.GetOr("")|
  {
    Text.ReplaceChar(p.GetOr(""), '\\', '/')
  }

  /** Where the photo comes from: the record's own image, the placeholder image, or nothing. */
  datatype ImageSource = Stored(path: string) | Placeholder | NoImage

  /** The record's image when its path is set and exists, otherwise the
      placeholder when it exists, otherwise nothing. */
  function ChooseImage(u: User, existing: set<string>): (src: ImageSource)
    ensures var p := NormalizePath(u.imagePath);
            && (src.Stored? <==> p != "" && p in existing)
            && (src.Stored? ==> src.path == p)
            && (src.Placeholder? <==> !(p != "" && p in existing) && PlaceholderImage in existing)
            && (src.NoImage? <==> !(p != "" && p in existing) && PlaceholderImage !in existing)
  {
    var p := NormalizePath(u.imagePath);
    if p != "" && p in existing then Stored(p)
    else if PlaceholderImage in existing then Placeholder
    else NoImage
  }

  const Labels: seq<string> := ["Name", "Email", "Age", "City", "Gender", "Skills"]

  /** The table's values, in label order; the age is printed with `str`. */
  function Values(u: User): seq<string>
  {
    [u.name, u.email, Numerals.IntToString(u.age), u.city, u.gender, u.skills]
  }

  function HeaderOps(): Ops
  {
    [SetFont(HelveticaBold, 18), DrawCentredString(PageWidth / 2, PageHeight - 50, Title)]
  }

  function LogoOps(existing: set<string>): Ops
  {
    if LogoPath in existing then [DrawImage(LogoPath, PageWidth - 2 * Inch, PageHeight - Inch, 3 * Inch / 2, Inch / 2)]
    else []
  }

  function ImageOps(src: ImageSource): Ops
  {
    match src
    case Stored(p) => [DrawImage(p, ImageX, ImageY, ImageSize, ImageSize)]
    case Placeholder => [DrawImage(PlaceholderImage, ImageX, ImageY, ImageSize, ImageSize)]
    case NoImage =>
      [SetFont(HelveticaOblique, 12), SetFill(Red), DrawCentredString(PageWidth / 2, ImageY + ImageSize / 2, ImageMissingText)]
  }

  /** The loop over `zip(labels, values)` from row `i` on. */
  function RowOps(values: seq<string>, i: nat): Ops
    requires |values| == |Labels|
    decreases |Labels| - i
  {
    if i >= |Labels| then []
    else
      RowLine(StartY - i * LineHeight, Labels[i] + ":", values[i]) + RowOps(values, i + 1)
  }

  /** One table row: the caption in grey, then the value in black, on baseline `y`. */
  function RowLine(y: int, caption: string, value: string): Ops
  {
    [SetFill(Grey), DrawString(LabelX, y, caption), SetFill(Black), DrawString(ValueX, y, value)]
  }

  function TableOps(u: User): Ops
  {
    [SetFont(Helvetica, 12)] + RowOps(Values(u), 0)
  }

  /** The resume note goes one line below the last table row. */
  function ResumeOps(pdfMissing: bool): Ops
  {
    var lastY := StartY - (|Labels| - 1) * LineHeight;
    if pdfMissing then [SetFont(HelveticaOblique, 12), SetFill(Red), DrawString(ResumeNoteX, lastY - LineHeight, ResumeMissingText)]
    else []
  }

  /** `generate_profile_pdf(user, path, pdf_missing)`: the single page it draws. */
  function GenerateProfile(u: User, pdfMissing: bool, existing: set<string>): Ops
  {
    HeaderOps() + LogoOps(existing) + ImageOps(ChooseImage(u, existing)) + TableOps(u) + ResumeOps(pdfMissing)
  }

  /** What ends up on the page: text in the font and colour current when it
      was drawn, and images. */
  datatype Mark =
    | TextMark(x: int, y: int, text: string, font: Font, size: int, color: Color, centred: bool)
    | Picture(path: string, x: int, y: int, width: int, height: int)

  /** The canvas' graphics state that text drawing depends on. */
  datatype Pen = Pen(font: Font, size: int, color: Color)

  /** A fresh reportlab canvas draws in 12 point Helvetica, filled black. */
  const FreshPen := Pen(Helvetica, 12, Black)

  function Step(pen: Pen, op: Op): Pen
  {
    match op
    case SetFont(f, size) => pen.(font := f, size := size)
    case SetFill(c) => pen.(color := c)
    case _ => pen
  }

  function PenAfter(ops: seq<Op>, pen: Pen): Pen
  {
    if |ops| == 0 then pen else PenAfter(ops[1..], Step(pen, ops[0]))
  }

  function MarkOf(op: Op, pen: Pen): seq<Mark>
  {
    match op
    case DrawString(x, y, t) => [TextMark(x, y, t, pen.font, pen.size, pen.color, false)]
    case DrawCentredString(x, y, t) => [TextMark(x, y, t, pen.font, pen.size, pen.color, true)]
    case DrawImage(p, x, y, w, h) => [Picture(p, x, y, w, h)]
    case _ => []
  }

  /** The marks a sequence of operations leaves, starting from `pen`. */
  function Render(ops: seq<Op>, pen: Pen): seq<Mark>
  {
    if |ops| == 0 then [] else MarkOf(ops[0], pen) + Render(ops[1..], Step(pen, ops[0]))
  }

  /** Drawing two runs of operations in turn leaves the marks of the first,
      then those of the second drawn with the pen the first left behind. */
  lemma {:induction false} RenderAppend(a: seq<Op>, b: seq<Op>, pen: Pen)
    ensures Render(a + b, pen) == Render(a, pen) + Render(b, PenAfter(a, pen))
    ensures PenAfter(a + b, pen) == PenAfter(b, PenAfter(a, pen))
    decreases |a|
  {
    if |a| > 0 {
      assert (a + b)[1..] == a[1..] + b;
      RenderAppend(a[1..], b, Step(pen, a[0]));
    } else {
      assert a + b == b;
    }
  }

  /** The six table rows as they appear on the page, with their coordinates
      written out: labels grey at x = 80, values black at x = 150, from
      y = 414 down in steps of 20. */
  function TableMarks(u: User): seq<Mark>
  {
    [ TextMark(80, 414, "Name:", Helvetica, 12, Grey, false),   TextMark(150, 414, u.name, Helvetica, 12, Black, false),
      TextMark(80, 394, "Email:", Helvetica, 12, Grey, false),  TextMark(150, 394, u.email, Helvetica, 12, Black, false),
      TextMark(80, 374, "Age:", Helvetica, 12, Grey, false),    TextMark(150, 374, Numerals.IntToString(u.age), Helvetica, 12, Black, false),
      TextMark(80, 354, "City:", Helvetica, 12, Grey, false),   TextMark(150, 354, u.city, Helvetica, 12, Black, false),
      TextMark(80, 334, "Gender:", Helvetica, 12, Grey, false), TextMark(150, 334, u.gender, Helvetica, 12, Black, false),
      TextMark(80, 314, "Skills:", Helvetica, 12, Grey, false), TextMark(150, 314, u.skills, Helvetica, 12, Black, false) ]
  }

  /** The page as the profile layout describes it, every position in points:
      the title centred at (306, 742); the logo at (468, 720), 108 x 36, when
      present; the 252-point photo at (180, 468), or else the red italic
      "image not uploaded" line centred at (306, 594); the table; and the red
      italic "resume not uploaded" line at (220, 294) when the resume is missing. */
  function ExpectedMarks(u: User, pdfMissing: bool, existing: set<string>): seq<Mark>
  {
    [TextMark(306, 742, Title, HelveticaBold, 18, Black, true)]
    + (if LogoPath in existing then [Picture(LogoPath, 468, 720, 108, 36)] else [])
    + (match ChooseImage(u, existing)
       case Stored(p) => [Picture(p, 180, 468, 252, 252)]
       case Placeholder => [Picture(PlaceholderImage, 180, 468, 252, 252)]
       case NoImage => [TextMark(306, 594, ImageMissingText, HelveticaOblique, 12, Red, true)])
    + TableMarks(u)
    + (if pdfMissing then [TextMark(220, 294, ResumeMissingText, HelveticaOblique, 12, Red, false)] else [])
  }

  /** Drawing one operation and then the rest. */
  lemma RenderCons(op: Op, rest: seq<Op>, pen: Pen)
    ensures Render([op] + rest, pen) == MarkOf(op, pen) + Render(rest, Step(pen, op))
    ensures PenAfter([op] + rest, pen) == PenAfter(rest, Step(pen, op))
  {
    assert ([op] + rest)[1..] == rest;
  }

  /** One table row drawn in front of any further operations: its caption in
      grey and its value in black on the row's baseline, leaving the pen black. */
  lemma RowRenders(y: int, caption: string, value: string, rest: seq<Op>, color: Color)
    ensures Render(RowLine(y, caption, value) + rest, Pen(Helvetica, 12, color))
         == [TextMark(LabelX, y, caption, Helvetica, 12, Grey, false), TextMark(ValueX, y, value, Helvetica, 12, Black, false)]
            + Render(rest, Pen(Helvetica, 12, Black))
    ensures PenAfter(RowLine(y, caption, value) + rest, Pen(Helvetica, 12, color))
         == PenAfter(rest, Pen(Helvetica, 12, Black))
  {
    var labelOp, valueOp := DrawString(LabelX, y, caption), DrawString(ValueX, y, value);
    var t3 := [valueOp] + rest;
    var t2 := [SetFill(Black)] + t3;
    var t1 := [labelOp] + t2;
    assert RowLine(y, caption, value) + rest == [SetFill(Grey)] + t1;
    var grey, black := Pen(Helvetica, 12, Grey), Pen(Helvetica, 12, Black);
    RenderCons(valueOp, rest, black);
    RenderCons(SetFill(Black), t3, grey);
    RenderCons(labelOp, t2, grey);
    RenderCons(SetFill(Grey), t1, Pen(Helvetica, 12, color));
  }

  /** Row `i` of the table, on its baseline 20 points below the previous one. */
  lemma RowStep(values: seq<string>, i: nat, color: Color)
    requires |values| == |Labels| && i < |Labels|
    ensures Render(RowOps(values, i), Pen(Helvetica, 12, color))
         == [TextMark(80, 414 - 20 * i, Labels[i] + ":", Helvetica, 12, Grey, false),
             TextMark(150, 414 - 20 * i, values[i], Helvetica, 12, Black, false)]
            + Render(RowOps(values, i + 1), Pen(Helvetica, 12, Black))
    ensures PenAfter(RowOps(values, i), Pen(Helvetica, 12, color))
         == PenAfter(RowOps(values, i + 1), Pen(Helvetica, 12, Black))
  {
    RowRenders(StartY - i * LineHeight, Labels[i] + ":", values[i], RowOps(values, i + 1), color);
  }

  /** The marks of rows `i` onwards, row `i` on baseline 414 - 20i. */
  function RowMarks(values: seq<string>, i: nat): seq<Mark>
    requires |values| == |Labels|
    decreases |Labels| - i
  {
    if i >= |Labels| then []
    else
      [TextMark(80, 414 - 20 * i, Labels[i] + ":", Helvetica, 12, Grey, false),
       TextMark(150, 414 - 20 * i, values[i], Helvetica, 12, Black, false)]
      + RowMarks(values, i + 1)
  }

  lemma {:induction false} RowsRender(values: seq<string>, i: nat, color: Color)
    requires |values| == |Labels|
    ensures Render(RowOps(values, i), Pen(Helvetica, 12, color)) == RowMarks(values, i)
    ensures PenAfter(RowOps(values, i), Pen(Helvetica, 12, color)) == Pen(Helvetica, 12, if i < |Labels| then Black else color)
    decreases |Labels| - i
  {
    if i < |Labels| {
      RowStep(values, i, color);
      RowsRender(values, i + 1, Black);
    }
  }

  lemma RowMarksSpelled(u: User)
    ensures RowMarks(Values(u), 0) == TableMarks(u)
  {
    var vs := Values(u);
    assert Labels[5] + ":" == "Skills:" && Labels[4] + ":" == "Gender:" && Labels[3] + ":" == "City:";
    assert Labels[2] + ":" == "Age:" && Labels[1] + ":" == "Email:" && Labels[0] + ":" == "Name:";
    assert RowMarks(vs, 6) == [];
    assert RowMarks(vs, 5) == TableMarks(u)[10..];
    assert RowMarks(vs, 4) == TableMarks(u)[8..];
    assert RowMarks(vs, 3) == TableMarks(u)[6..];
    assert RowMarks(vs, 2) == TableMarks(u)[4..];
    assert RowMarks(vs, 1) == TableMarks(u)[2..];
  }

  /** The table draws the expected marks and leaves the pen black. */
  lemma TableRenders(u: User, pen: Pen)
    ensures Render(TableOps(u), pen) == TableMarks(u)
    ensures PenAfter(TableOps(u), pen) == Pen(Helvetica, 12, Black)
  {
    RenderCons(SetFont(Helvetica, 12), RowOps(Values(u), 0), pen);
    RowsRender(Values(u), 0, pen.color);
    RowMarksSpelled(u);
  }

  lemma HeaderRenders()
    ensures Render(HeaderOps(), FreshPen) == [TextMark(306, 742, Title, HelveticaBold, 18, Black, true)]
    ensures PenAfter(HeaderOps(), FreshPen) == Pen(HelveticaBold, 18, Black)
  {
    var ops := HeaderOps();
    assert ops[1..] == [ops[1]];
    assert ops[1..][1..] == [];
  }

  lemma LogoRenders(existing: set<string>, pen: Pen)
    ensures Render(LogoOps(existing), pen) == (if LogoPath in existing then [Picture(LogoPath, 468, 720, 108, 36)] else [])
    ensures PenAfter(LogoOps(existing), pen) == pen
  {
    var ops := LogoOps(existing);
    if LogoPath in existing {
      assert ops[1..] == [];
    }
  }

  lemma ImageRenders(src: ImageSource, pen: Pen)
    ensures Render(ImageOps(src), pen)
         == match src
            case Stored(p) => [Picture(p, 180, 468, 252, 252)]
            case Placeholder => [Picture(PlaceholderImage, 180, 468, 252, 252)]
            case NoImage => [TextMark(306, 594, ImageMissingText, HelveticaOblique, 12, Red, true)]
  {
    var ops := ImageOps(src);
    if src.NoImage? {
      var p1 := Step(pen, ops[0]);
      var p2 := Step(p1, ops[1]);
      RenderCons(ops[2], [], p2);
      RenderCons(ops[1], [ops[2]], p1);
      RenderCons(ops[0], [ops[1], ops[2]], pen);
      assert [ops[2]] + [] == [ops[2]];
      assert [ops[1]] + [ops[2]] == [ops[1], ops[2]];
      assert [ops[0]] + [ops[1], ops[2]] == ops;
    } else {
      RenderCons(ops[0], [], pen);
      assert [ops[0]] + [] == ops;
    }
  }

  lemma ResumeRenders(pdfMissing: bool, pen: Pen)
    ensures Render(ResumeOps(pdfMissing), pen)
         == (if pdfMissing then [TextMark(220, 294, ResumeMissingText, HelveticaOblique, 12, Red, false)] else [])
  {
    var ops := ResumeOps(pdfMissing);
    if pdfMissing {
      var p1 := Step(pen, ops[0]);
      var p2 := Step(p1, ops[1]);
      RenderCons(ops[2], [], p2);
      RenderCons(ops[1], [ops[2]], p1);
      RenderCons(ops[0], [ops[1], ops[2]], pen);
      assert [ops[2]] + [] == [ops[2]];
      assert [ops[1]] + [ops[2]] == [ops[1], ops[2]];
      assert [ops[0]] + [ops[1], ops[2]] == ops;
    }
  }

  /** The profile page shows exactly the expected marks: the operations are
      a faithful drawing of the layout, with every font and colour switch
      landing on the text it is meant for. */
  lemma ProfileRenders(u: User, pdfMissing: bool, existing: set<string>)
    ensures Render(GenerateProfile(u, pdfMissing, existing), FreshPen) == ExpectedMarks(u, pdfMissing, existing)
  {
    var header, logo, image := HeaderOps(), LogoOps(existing), ImageOps(ChooseImage(u, existing));
    var table, resume := TableOps(u), ResumeOps(pdfMissing);
    RenderAppend(header, logo, FreshPen);
    RenderAppend(header + logo, image, FreshPen);
    RenderAppend(header + logo + image, table, FreshPen);
    RenderAppend(header + logo + image + table, resume, FreshPen);
    var pen1 := PenAfter(header, FreshPen);
    var pen2 := PenAfter(logo, pen1);
    var pen3 := PenAfter(image, pen2);
    var pen4 := PenAfter(table, pen3);
    HeaderRenders();
    LogoRenders(existing, pen1);
    ImageRenders(ChooseImage(u, existing), pen2);
    TableRenders(u, pen3);
    ResumeRenders(pdfMissing, pen4);
  }

  /** The red italic "resume not uploaded" line at (220, 294). */
  const ResumeNote := TextMark(220, 294, ResumeMissingText, HelveticaOblique, 12, Red, false)

  /** The red italic "image not uploaded" line centred at (306, 594). */
  const ImageNote := TextMark(306, 594, ImageMissingText, HelveticaOblique, 12, Red, true)

  /** Every table mark is plain Helvetica, so neither note is one of them. */
  lemma TableHasNoNotes(u: User)
    ensures ResumeNote !in TableMarks(u) && ImageNote !in TableMarks(u)
  {
    var t := TableMarks(u);
    assert forall k :: 0 <= k < |t| ==> t[k].font == Helvetica;
  }

  /** The resume note is on the page exactly when the resume is missing, and
      the image note exactly when neither the record's image nor the
      placeholder exists; a missing asset never stops the page being drawn. */
  lemma WarningsIffMissing(u: User, pdfMissing: bool, existing: set<string>)
    ensures var marks := Render(GenerateProfile(u, pdfMissing, existing), FreshPen);
            && (ResumeNote in marks <==> pdfMissing)
            && (ImageNote in marks <==> ChooseImage(u, existing).NoImage?)
  {
    ProfileRenders(u, pdfMissing, existing);
    TableHasNoNotes(u);
  }
}

=== FILE: text.dfy ===
/** String helpers with Python's semantics: `sep.join`, `str.split(sep)`,
    ASCII lower-casing, substring search, `str.replace` of one character and
    the UTF-8 length of a string (`len(s.encode("utf-8"))`). */
module Text {

  /** `sep.join(parts)` for a one-character separator. */
  function Join(parts: seq<string>, sep: char): string
  {
    if |parts| == 0 then ""
    else if |parts| == 1 then parts[0]
    else parts[0] + [sep] + Join(parts[1..], sep)
  }

  /** `s.split(sep)`: at least one piece (`"".split(",") == [""]`), one more
      piece than there are separators, and no piece contains the separator. */
  function Split(s: string, sep: char): (r: seq<string>)
    ensures |r| >= 1
    ensures forall i :: 0 <= i < |r| ==> sep !in r[i]
    decreases |s|
  {
    if |s| == 0 then [""]
    else
      var rest := Split(s[1..], sep);
      if s[0] == sep then [""] + rest
      else [[s[0]] + rest[0]] + rest[1..]
  }

  /** Joining with a longer head only lengthens the result's head. */
  lemma JoinConsHead(a: char, h: string, t: seq<string>, sep: char)
    ensures Join([[a] + h] + t, sep) == [a] + Join([h] + t, sep)
  {
    if |t| > 0 {
      assert ([[a] + h] + t)[1..] == t;
      assert ([h] + t)[1..] == t;
    }
  }

  /** Splitting and joining again gives back the string: `sep.join(s.split(sep)) == s`. */
  lemma {:induction false} SplitThenJoin(s: string, sep: char)
    ensures Join(Split(s, sep), sep) == s
    decreases |s|
  {
    if |s| > 0 {
      var rest := Split(s[1..], sep);
      SplitThenJoin(s[1..], sep);
      if s[0] == sep {
        assert ([""] + rest)[1..] == rest;
        assert s == [sep] + s[1..];
      } else {
        JoinConsHead(s[0], rest[0], rest[1..], sep);
        assert [rest[0]] + rest[1..] == rest;
        assert s == [s[0]] + s[1..];
      }
    }
  }

  /** A piece free of the separator splits to itself. */
  lemma {:induction false} SplitWithoutSeparator(p: string, sep: char)
    requires sep !in p
    ensures Split(p, sep) == [p]
    decreases |p|
  {
    if |p| > 0 {
      SplitWithoutSeparator(p[1..], sep);
      assert [p[0]] + p[1..] == p;
    }
  }

  /** A separator-free piece followed by the separator splits off as one piece. */
  lemma {:induction false} SplitAfterPiece(p: string, sep: char, rest: string)
    requires sep !in p
    ensures Split(p + [sep] + rest, sep) == [p] + Split(rest, sep)
    decreases |p|
  {
    var s := p + [sep] + rest;
    if |p| == 0 {
      assert s[1..] == rest;
    } else {
      assert s[1..] == p[1..] + [sep] + rest;
      SplitAfterPiece(p[1..], sep, rest);
      assert [p[0]] + p[1..] == p;
      assert ([p[1..]] + Split(rest, sep))[1..] == Split(rest, sep);
    }
  }

  /** Joining separator-free pieces and splitting again recovers the pieces:
      `",".join(xs).split(",") == xs` for a non-empty `xs`. */
  lemma {:induction false} JoinThenSplit(parts: seq<string>, sep: char)
    requires |parts| >= 1
    requires forall i :: 0 <= i < |parts| ==> sep !in parts[i]
    ensures Split(Join(parts, sep), sep) == parts
    decreases |parts|
  {
    if |parts| == 1 {
      SplitWithoutSeparator(parts[0], sep);
    } else {
      JoinThenSplit(parts[1..], sep);
      SplitAfterPiece(parts[0], sep, Join(parts[1..], sep));
      assert [parts[0]] + parts[1..] == parts;
    }
  }

  /** ASCII lower-casing of one character. */
  function LowerChar(c: char): char
  {
    if 'A' <= c <= 'Z' then (c as int + 32) as char else c
  }

  /** ASCII lower-casing of a string, character by character. */
  function Lower(s: string): (r: string)
    ensures |r| == |s|
    ensures forall i :: 0 <= i < |s| ==> r[i] == LowerChar(s[i])
    ensures forall i :: 0 <= i < |s| ==> !('A' <= r[i] <= 'Z')
  {
    seq(|s|, i requires 0 <= i < |s| => LowerChar(s[i]))
  }

  /** `needle in hay` for strings, by scanning the start positions of `hay`. */
  predicate Contains(hay: string, needle: string)
    decreases |hay|
  {
    needle <= hay || (|hay| > 0 && Contains(hay[1..], needle))
  }

  /** Reference meaning of substring search: some window of `hay` equals `needle`. */
  ghost predicate OccursAt(hay: string, needle: string, i: int)
  {
    0 <= i && i + |needle| <= |hay| && hay[i..i + |needle|] == needle
  }

  /** A window is either at the start or a window of the tail, one position earlier. */
  lemma OccursElsewhere(hay: string, needle: string, i: int)
    requires OccursAt(hay, needle, i)
    ensures needle <= hay || (|hay| > 0 && OccursAt(hay[1..], needle, i - 1))
  {
    if i > 0 {
      assert hay[1..][i - 1..i - 1 + |needle|] == hay[i..i + |needle|];
    } else {
      assert hay[..|needle|] == needle;
    }
  }

  /** A window of the tail is a window of the whole, one position later. */
  lemma OccursLater(hay: string, needle: string, j: int)
    requires |hay| > 0 && OccursAt(hay[1..], needle, j)
    ensures OccursAt(hay, needle, j + 1)
  {
    assert hay[1..][j..j + |needle|] == hay[j + 1..j + 1 + |needle|];
  }

  /** The scanning search finds a window exactly when one exists. */
  lemma {:induction false} ContainsIffOccurs(hay: string, needle: string)
    ensures Contains(hay, needle) <==> exists i :: OccursAt(hay, needle, i)
    decreases |hay|
  {
    if needle <= hay {
      assert OccursAt(hay, needle, 0);
    } else {
      if Contains(hay, needle) {
        ContainsIffOccurs(hay[1..], needle);
        var j :| OccursAt(hay[1..], needle, j);
        OccursLater(hay, needle, j);
      }
      forall i | OccursAt(hay, needle, i) ensures Contains(hay, needle) {
        OccursElsewhere(hay, needle, i);
        ContainsIffOccurs(hay[1..], needle);
      }
    }
  }

  /** Case-insensitive substring test, as Postgres `hay ILIKE '%needle%'`
      for a needle without wildcard characters, with ASCII case folding. */
  predicate ContainsIgnoringCase(hay: string, needle: string)
  {
    Contains(Lower(hay), Lower(needle))
  }

  /** `s.replace(from, to)` for single characters. */
  function ReplaceChar(s: string, from: char, to: char): (r: string)
    ensures |r| == |s|
    ensures from != to ==> from !in r
    ensures forall i :: 0 <= i < |s| && s[i] != from ==> r[i] == s[i]
    ensures forall i :: 0 <= i < |s| && s[i] == from ==> r[i] == to
  {
    seq(|s|, i requires 0 <= i < |s| => if s[i] == from then to else s[i])
  }

  /** Number of bytes UTF-8 uses for one Unicode scalar value. */
  function Utf8Width(c: char): nat
  {
    if c as int < 0x80 then 1
    else if c as int < 0x800 then 2
    else if c as int < 0x1_0000 then 3
    else 4
  }

  /** `len(s.encode("utf-8"))`. */
  function Utf8Length(s: string): (n: nat)
    ensures |s| <= n <= 4 * |s|
  {
    if |s| == 0 then 0 else Utf8Width(s[0]) + Utf8Length(s[1..])
  }

  /** Only code points below 0x80 take one byte, so a pure-ASCII string's
      byte length is its character count and any other string is longer. */
  lemma {:induction false} Utf8LengthOfAscii(s: string)
    ensures Utf8Length(s) == |s| <==> forall i :: 0 <= i < |s| ==> s[i] as int < 0x80
    decreases |s|
  {
    if |s| > 0 {
      Utf8LengthOfAscii(s[1..]);
      assert forall i :: 1 <= i < |s| ==> s[i] == s[1..][i - 1];
    }
  }
}

=== FILE: wrappers.dfy ===
/** Failure-carrying values used throughout the model: `Option` for Python's
    `None`-or-value, `Result` for an operation that either succeeds or raises. */
module Wrappers {

  datatype Option<+T> = None | Some(value: T) {

    /** The value, or `default` when there is none (Python's `x or default`). */
    function GetOr(default: T): T {
      match this
      case Some(v) => v
      case None => default
    }
  }

  datatype Result<+R, +E> = Success(value: R) | Failure(error: E)
}
